=== FILE: README.md ===
# Lucky Fortune slot games: a Dafny model

This project models the game logic of a browser slot-machine app written in
React and TypeScript. It covers:

- three slot machines:
  - the premium zodiac slot;
  - the fortune zodiac slot;
  - the fullscreen sprite slot.
- the page that holds the player's economy (coins, energy, experience, level
  and the counters). The page hands only the balance, energy, experience and
  level-up handlers to the hub. Its daily-claim, referral, spend, gain,
  achievement and advert handlers are written but passed to no component.
  They are modelled as written (`Economy.ClaimsAccumulate`,
  `Economy.ReferralsAccumulate`, `Economy.SpendGainInverse`,
  `Economy.GainEnergyComposes`, `Economy.AdRewardGain`,
  `Economy.AdRewardAfterTicks`), but the page cannot reach them. The daily
  claim the page does reach is the hub's (`GameHub.CoinsEnergyRewardDoubleCredits`):
  it counts a spin and never advances the day or the streak;
- the game hub that hands out rewards;
- the machine skins (themes) and the sprite catalog;
- the age gate in front of the app.

Modelling choices:

- Every `Math.random()` value is an explicit real parameter in `[0, 1)`.
  `Math.floor(Math.random() * n)` is `Numeric.PickIndex`.
- The reel window is a 3x3 `grid[column][row]` (module `Grid`).
- A game component's calls into its parent (`onCoinsChange`, `onEnergyChange`,
  `onExperienceChange`, `onLevelUp`) are returned as data (`Callbacks`).
- The page's handlers (`Economy`) apply those calls. They follow React's
  batching rules:
  - functional updates apply in order and plain setters overwrite;
  - a handler reads the state of the render it was created in;
  - the level-up effect runs once the batch is rendered.
- The fullscreen slot's line evaluator takes two parameters: the stake it pays with and where a win records its positions. The spin as written (`FullscreenSlot.HandleSpin`) passes the first render's stake of 10 and `lineIndex x 3 + i`, because `checkWinningLines` is memoised once. The corrected spin (`FullscreenSlot.HandleSpinIntended`) passes the stake spent and the rendered cell positions.
- JavaScript's `%` truncates toward zero, and is modelled as `Numeric.JsRem`.
  Fractional multipliers such as `0.6`, `0.5` and `0.05` are exact reals, and
  `Math.floor` is `.Floor`.
- The age gate's browser storage is a value threaded through its operations.
  `Date.now()` is an integer timestamp. Today's date is a `(year, month, day)`
  triple.

Modules:

- `Wrappers`, `Numeric`, `Callbacks`, `Grid`, `Bets` and `Zodiac` are shared
  helpers. `Bets` holds the stepped bet buttons; `Zodiac` holds the row check
  shared by both zodiac slots.
- `Sprites`, `Themes`, `PremiumSlot`, `FortuneSlot`, `FullscreenSlot`,
  `Economy`, `GameHub` and `AgeGate` each follow one source file.

## Model

| member | source | states |
|---|---|---|
| Callbacks.Apply | src/components/PremiumZodiacSlot.tsx:34-36 | a parent that stores each value it is handed ends, for each balance, with the value of the last call of that kind wherever it sits in the list, and keeps a balance no call names |
| Sprites.OfRarity | src/components/FullscreenSlotMachine.tsx:68 | the filtered pool holds exactly the catalog symbols of the requested rarity |
| Sprites.CatalogShape | src/components/SpriteSystem.tsx:28-83 | six symbols, with distinct ids and strictly decreasing multipliers |
| Sprites.RarityPools | src/components/SpriteSystem.tsx:28-83 | the legendary pool is just the tiger and the epic pool just the fox; the rare and common pools hold two symbols each |
| Sprites.OnlyEpicIsFox | src/components/SpriteSystem.tsx:38-46 | no symbol of another rarity is the fox |
| Sprites.PreloadMatchesDisplay | src/components/SpriteSystem.tsx:157-160 | the preload list has two entries per symbol; the entry at `2i` (idle) or `2i+1` (win) is the very key and URL that symbol `i` displays with (lines 101-102) |
| Sprites.CatalogPreload | src/components/SpriteSystem.tsx:157-160 | the catalog preloads 12 sprites, from `tiger-idle` to `scroll-win` |
| Themes.TableShape | src/components/ThemeSystem.tsx:21-88 | six skins with unlock levels rising strictly from 1, distinct ids, classic first |
| Themes.UnlockedPrefix | src/components/ThemeSystem.tsx:130-132 | a skin is unlocked iff `playerLevel >= unlockLevel`; the unlocked skins form a prefix of the table, and the prefix length is returned |
| Themes.ClassicUnlockedFromStart | src/components/ThemeSystem.tsx:26 | the classic skin is unlocked from level 1 |
| Themes.FindIn | src/components/ThemeSystem.tsx:135 | `find` returns an entry with the requested id, and returns nothing iff no entry has it |
| Themes.EveryThemeFound | src/components/ThemeSystem.tsx:21-88 | every skin id is in the table |
| Themes.IndexOf | src/components/ThemeSystem.tsx:21-88 | the table position of each skin holds that skin |
| Themes.ConfigOrDefault | src/components/PremiumZodiacSlot.tsx:140-142 | the lookup with its fallback to `themes[0]` always yields the entry of the requested skin, so the fallback never fires |
| Themes.HandleThemeSelect | src/components/ThemeSystem.tsx:134-140 | the selection changes and is reported iff the skin exists and is unlocked; otherwise the selection stays and nothing is reported |
| Themes.UnlockProgress | src/components/ThemeSystem.tsx:142-144 | below the required level the bar shows `level / required × 100`; it is at most 100, and equals 100 iff the level suffices |
| Themes.ProgressMonotone | src/components/ThemeSystem.tsx:142-144 | the bar never shrinks as the player's level grows |
| Themes.ProgressFullIffUnlocked | src/components/ThemeSystem.tsx:130-144 | for every skin, the progress bar is full iff the skin is unlocked |
| Bets.SteppedAdjust | src/components/PremiumZodiacSlot.tsx:453-459 | one click moves the bet by at most one step in the clicked direction, and keeps an in-range bet in range |
| Bets.ClicksStayOnGrid | src/components/ZodiacFortuneSlot.tsx:180-186 | any series of clicks from an in-range multiple of the step stays in range and on the step grid |
| Zodiac.FirstWinningRow | src/components/PremiumZodiacSlot.tsx:178-222 | returns nothing iff no row matches; otherwise a matching row with no earlier-priority row matching, in the order middle, top, bottom |
| Zodiac.OfRarityMembers | src/components/ZodiacFortuneSlot.tsx:88 | the filtered list holds exactly the symbols of that rarity |
| PremiumSlot.LegendaryBonus | src/components/PremiumZodiacSlot.tsx:157 | the bonus is `level x 0.01` up to level 5 and 0.05 from there on |
| PremiumSlot.DrawRarity | src/components/PremiumZodiacSlot.tsx:150-170 | never epic; up to level 5, legendary iff the roll is below `0.10 + level x 0.01` and common iff it is at least `0.45 + level x 0.01`; from level 5 on, legendary iff below 0.15 and common iff at least 0.50; rare in between |
| PremiumSlot.LegendaryBandGrowsWithLevel | src/components/PremiumZodiacSlot.tsx:157-159 | a higher level only moves rolls from common towards legendary |
| PremiumSlot.InSymbolSet | src/components/PremiumZodiacSlot.tsx:146-148 | the skin filter keeps exactly the symbols whose emoji is in the skin's set |
| PremiumSlot.Draw | src/components/PremiumZodiacSlot.tsx:144-176 | the drawn symbol is a catalog symbol; with a non-empty pool it has the rolled rarity and the skin's emoji, otherwise it is the uniform fallback pick |
| PremiumSlot.ClassicAdmitsAll | src/components/ThemeSystem.tsx:30 | the classic skin admits all six symbols |
| PremiumSlot.ClassicNeverFallsBack | src/components/PremiumZodiacSlot.tsx:172-175 | under the classic skin the drawn symbol always has the rolled rarity |
| PremiumSlot.ClassicPoolNonEmpty | src/components/PremiumZodiacSlot.tsx:172 | under the classic skin every rollable rarity has a symbol |
| PremiumSlot.OtherSkinsAdmitNone | src/components/ThemeSystem.tsx:21-88 | no emoji of this slot is in any non-classic skin's set, so those skins admit no symbol |
| PremiumSlot.OtherSkinsAlwaysFallBack | src/components/PremiumZodiacSlot.tsx:172-175 | under any non-classic skin every draw is the uniform fallback pick, whatever the roll and level |
| PremiumSlot.StreakBonus | src/components/PremiumZodiacSlot.tsx:188-190 | the streak bonus lies in `[0, 1]` and is 0 without a streak |
| PremiumSlot.CheckWin | src/components/PremiumZodiacSlot.tsx:178-223 | no win iff no row matches; a win is on the first matching row and pays that row's symbol; middle pays `floor(bet x mult x (1 + streak + level x 0.05))` and is a jackpot iff legendary; top and bottom pay `floor(bet x mult x 0.6)` |
| PremiumSlot.CelebrationMonotone | src/components/PremiumZodiacSlot.tsx:391-410 | a larger win never gets a lower celebration tier |
| PremiumSlot.JackpotFlagReachesJackpotTier | src/components/PremiumZodiacSlot.tsx:202 | a win flagged as a jackpot always reaches the 20-stake celebration |
| PremiumSlot.LegendaryIsTiger | src/components/PremiumZodiacSlot.tsx:60-67 | the only legendary symbol pays 50 |
| PremiumSlot.JackpotTierWithoutFlag | src/components/PremiumZodiacSlot.tsx:210-213 | a top row of tigers pays 3000 on a stake of 100; it reaches the jackpot celebration without the jackpot flag |
| PremiumSlot.FillGrid | src/components/PremiumZodiacSlot.tsx:354-358 | the final window holds one draw per cell |
| PremiumSlot.Settle | src/components/PremiumZodiacSlot.tsx:327-447 | energy and stake are debited first; a win extends the streak and records the amount; a loss resets the streak; the spin count grows by one |
| PremiumSlot.SettleBalances | src/components/PremiumZodiacSlot.tsx:327-377 | the parent ends at `coins - stake + win` and `energy - 1`; on a win, experience grows by `floor(win / 10)` |
| PremiumSlot.Spin | src/components/PremiumZodiacSlot.tsx:312-362 | refused iff there is no energy or the balance is below the stake, with energy checked first; otherwise the drawn window is settled |
| PremiumSlot.AutoSpinNeverRejected | src/components/PremiumZodiacSlot.tsx:126-133 | an auto-spin that is due is never refused |
| PremiumSlot.AdjustBet | src/components/PremiumZodiacSlot.tsx:453-459 | the bet stays in `[50, 1000]` and moves in the clicked direction |
| PremiumSlot.BetStaysInRange | src/components/PremiumZodiacSlot.tsx:87 | from 100, any series of clicks keeps the bet a multiple of 50 in `[50, 1000]` |
| FortuneSlot.DrawRarity | src/components/ZodiacFortuneSlot.tsx:71-86 | legendary iff the roll is below 0.1; rare iff it is in `[0.1, 0.4)`; common iff it is 0.4 or more; never epic |
| FortuneSlot.Draw | src/components/ZodiacFortuneSlot.tsx:70-90 | the pick is a catalog symbol of the rolled rarity |
| FortuneSlot.PoolsNonEmpty | src/components/ZodiacFortuneSlot.tsx:23-30 | every rollable rarity has a symbol, so the pick never indexes an empty list |
| FortuneSlot.CheckWin | src/components/ZodiacFortuneSlot.tsx:92-119 | first matching row in the order middle, top, bottom; middle pays `bet x mult`; top and bottom pay `floor(bet x mult x 0.5)` |
| FortuneSlot.HalfFloor | src/components/ZodiacFortuneSlot.tsx:108 | flooring half a whole number is integer halving |
| FortuneSlot.WinBounded | src/components/ZodiacFortuneSlot.tsx:92-119 | no spin pays more than 15 stakes |
| FortuneSlot.FillGrid | src/components/ZodiacFortuneSlot.tsx:143-147 | the window holds one draw per cell |
| FortuneSlot.Settle | src/components/ZodiacFortuneSlot.tsx:136-156 | energy and stake are debited first; a win records the amount and credits `coins - stake + win` |
| FortuneSlot.SettleBalances | src/components/ZodiacFortuneSlot.tsx:136-156 | the parent ends at `coins - stake + win` and `energy - 1` |
| FortuneSlot.Spin | src/components/ZodiacFortuneSlot.tsx:121-151 | refused iff there is no energy or the balance is below the stake, with energy first; otherwise drawn, evaluated and settled |
| FortuneSlot.AdjustBet | src/components/ZodiacFortuneSlot.tsx:180-186 | the bet stays in `[25, 500]` and moves in the clicked direction |
| FortuneSlot.BetStaysInRange | src/components/ZodiacFortuneSlot.tsx:47 | from 50, any series of clicks keeps the bet a multiple of 25 in `[25, 500]` |
| FullscreenSlot.PrefixWeights | src/components/FullscreenSlotMachine.tsx:56-66 | the cumulative weights are 0.05, 0.30 and 1.0 |
| FullscreenSlot.WeightedDraw | src/components/FullscreenSlotMachine.tsx:55-74 | the drawn symbol is in the catalog and never epic; for a roll of at most 1 it has the rarity of the band the roll falls in |
| FullscreenSlot.PoolNonEmpty | src/components/FullscreenSlotMachine.tsx:68-69 | every rarity the walk can stop at has a symbol |
| FullscreenSlot.WeightStep | src/components/FullscreenSlotMachine.tsx:65-67 | the entry where the cumulative walk stops is the roll's band |
| FullscreenSlot.WeightedRandomSymbol | src/components/FullscreenSlotMachine.tsx:55-74 | the loop over the cumulative weights returns the reference draw |
| FullscreenSlot.FoxNeverDrawn | src/components/FullscreenSlotMachine.tsx:56-60 | the epic fox is never drawn, and every roll in `[0, 1)` gets its band's rarity |
| FullscreenSlot.LineCells | src/components/FullscreenSlotMachine.tsx:79-99 | each of the eight paylines has three cells inside the window |
| FullscreenSlot.LineSymbolsCells | src/components/FullscreenSlotMachine.tsx:79-99 | a payline's symbols are the symbols of its cells: rows, then reels, then both diagonals |
| FullscreenSlot.AsWrittenHighlightMisses | src/components/FullscreenSlotMachine.tsx:117 | the recorded positions of row 0 are reel 0's cells, and those of every reel or diagonal line lie past the rendered cells (line 235) |
| FullscreenSlot.LinePositionsExact | src/components/FullscreenSlotMachine.tsx:235-238 | with corrected positions, a rendered cell is among a line's positions iff it is on that line |
| FullscreenSlot.LineWinSpec | src/components/FullscreenSlotMachine.tsx:108-124 | a line wins iff it has at least three symbols sharing the first one's id; the win records the line's positions and pays the stake the evaluator closes over times the multiplier |
| FullscreenSlot.WinsUpTo | src/components/FullscreenSlotMachine.tsx:77-124 | the reference wins of the paylines in order, for a given stake and position layout, at most one per payline |
| FullscreenSlot.CheckWinningLines | src/components/FullscreenSlotMachine.tsx:77-124 | the three loops return exactly the reference wins at the first render's stake of 10, with positions `lineIndex x 3 + i`, because the callback is memoised with no dependencies (line 105) |
| FullscreenSlot.HighlightExact | src/components/FullscreenSlotMachine.tsx:235-238 | with the rendered positions recorded instead, a cell is highlighted iff it lies on a winning payline |
| FullscreenSlot.AsWrittenHighlight | src/components/FullscreenSlotMachine.tsx:117 | as written, a rendered cell of reel `c` is highlighted iff row `c` won: a winning row lights a reel, and reel and diagonal wins light nothing (line 235) |
| FullscreenSlot.TotalWin | src/components/FullscreenSlotMachine.tsx:174 | the loop equals the left fold of the payouts |
| FullscreenSlot.PayoutSumAppend | src/components/FullscreenSlotMachine.tsx:174 | appending a line's win adds its payout to the total |
| FullscreenSlot.TotalBounded | src/components/FullscreenSlotMachine.tsx:77-124 | the total win of any window of catalog symbols lies between 0 and 400 times the stake the evaluator pays with |
| FullscreenSlot.UniformWindowPaysAll | src/components/FullscreenSlotMachine.tsx:77-124 | a window of one symbol wins on all eight lines and pays eight times the evaluator's stake times the multiplier; tigers pay 400 of those stakes |
| FullscreenSlot.HandleSpin | src/components/FullscreenSlotMachine.tsx:127-212 | ignored iff a spin runs, the balance is below the stake or there is no energy; otherwise the current stake is spent and the drawn window settled with the wins of the memoised evaluator, at the stake of 10 |
| FullscreenSlot.HandleSpinIntended | src/components/FullscreenSlotMachine.tsx:127-212 | corrected: the same gate, with the wins paying the stake that was spent and recording rendered positions |
| FullscreenSlot.SettleEffects | src/components/FullscreenSlotMachine.tsx:135-204 | the stake is spent first; the net change is `total win - stake`; experience is `floor(total / 10)`; the spin completes iff some line won |
| FullscreenSlot.SpinNet | src/components/FullscreenSlotMachine.tsx:135-178 | a handled spin moves the balance by exactly `total win - stake` |
| FullscreenSlot.SpinPaysAtMost4000 | src/components/FullscreenSlotMachine.tsx:171-176 | as written, no handled spin pays more than 4000, whatever the stake spent |
| FullscreenSlot.SpinPaysAtMost400 | src/components/FullscreenSlotMachine.tsx:171-176 | corrected: no handled spin pays more than 400 stakes |
| FullscreenSlot.FrozenStakeTigers | src/components/FullscreenSlotMachine.tsx:105-119 | a window of tigers pays 4000 as written for every stake, so 4000 stakes at a stake of 1; as intended it pays 400 stakes |
| FullscreenSlot.EffectMonotone | src/components/FullscreenSlotMachine.tsx:186-192 | a larger total never gets a smaller particle effect; 15 stakes get the win effect and 50 the jackpot |
| FullscreenSlot.AutoSpinNeverIgnored | src/components/FullscreenSlotMachine.tsx:215-220 | an auto-spin that is due is never ignored |
| FullscreenSlot.AdjustBet | src/components/FullscreenSlotMachine.tsx:223-228 | the new stake is at least 1, at most the balance when there is one, and exactly `bet + change` when that is in range |
| FullscreenSlot.AdjustedBetAffordable | src/components/FullscreenSlotMachine.tsx:223-228 | with any balance, energy and no spin running, an adjusted stake is never refused; with no balance, every spin is refused |
| Economy.Regen | src/pages/Index.tsx:41-47 | a tick never lowers energy, never passes the cap, and changes nothing else |
| Economy.RegenTicksClosedForm | src/pages/Index.tsx:41-47 | `n` ticks give `min(energy + n, 10)` |
| Economy.LevelUpSettles | src/pages/Index.tsx:50-66 | the effect is idempotent, so one render gains at most one level |
| Economy.LevelUpDiscardsExcess | src/pages/Index.tsx:53 | 1150 experience levels up to experience 0 |
| Economy.OnLevelUpMatchesEffect | src/pages/Index.tsx:50-54 | the explicit level-up agrees with the effect |
| Economy.LevelUpBonusPerLevel | src/pages/Index.tsx:50-54 | the effect and the explicit level-up (lines 225-229) both keep `coins - 500 x level`, so each level gained pays exactly one bonus |
| Economy.CoinsChangeDrift | src/pages/Index.tsx:68-73 | `total earned - balance` moves by exactly how far the balance the handler read lags the live one, so the ledger keeps pace iff the handler is current |
| Economy.SpinsCounted | src/pages/Index.tsx:83-86 | every energy change in a batch counts exactly one spin |
| Economy.DebitBatch | src/pages/Index.tsx:50-86 | a slot's debit batch counts a spin, records `-stake` in the last win and the total earned and grants 10 experience; when that reaches the maximum the effect levels up and adds the bonus |
| Economy.StakeCountedTwice | src/pages/Index.tsx:69 | a win credited by the pre-spin handlers: the total earned loses the stake twice and the last win omits it; when the debit batch levels up, the credit overwrites the bonus while the level stays |
| Economy.StakeCountedTwiceExample | src/pages/Index.tsx:69 | stake 50 and win 100 from the initial state: balance 1050, total earned still 15000 |
| Economy.StakeLosesBonusExample | src/pages/Index.tsx:69 | from 990 experience, stake 50 and win 100: the debit batch levels up to 1450 coins and the credit sets 1050 |
| Economy.LedgerTracksBalance | src/pages/Index.tsx:68-73 | measured against the live balance, the total earned moves exactly with the balance, except that each level-up in the batch adds its 500 bonus to the balance alone |
| Economy.StakeCountedOnce | src/pages/Index.tsx:68-73 | corrected: crediting the win on the live balance, measured live, adds `win - stake` to the total earned, records the win as the last win and keeps every level-up bonus |
| Economy.ClaimsAccumulate | src/pages/Index.tsx:96-101 | a series of daily claims adds the sum of the coin rewards, advances the day and the streak together by the number of claims, ignores the `day` argument and leaves levels and counters alone |
| Economy.ReferralsAccumulate | src/pages/Index.tsx:103-113 | `n` referrals add `n` to the count and `500 x n` coins and change nothing else |
| Economy.SpendingCanOverdraw | src/pages/Index.tsx:119-121 | spending 1500 from 1000 leaves -500 |
| Economy.SpendGainInverse | src/pages/Index.tsx:115-125 | spending and gaining the same amount undo each other in either order; a spend goes below zero iff it exceeds the balance |
| Economy.GainEnergyComposes | src/pages/Index.tsx:127-129 | from at most the cap, a gain of `a` then a non-negative `b` is a gain of `a + b` |
| Economy.EnergyStaysInRange | src/pages/Index.tsx:41-139 | regeneration, gains, the advert and the daily claim keep energy within `[0, 10]` |
| Economy.AdRewardGain | src/pages/Index.tsx:138-140 | the grant never lowers an in-range energy, raises it iff it is below the cap, by two unless that passes the cap |
| Economy.AdRewardAfterTicks | src/pages/Index.tsx:131-141 | accepted on the render's energy and granted after `n` regeneration ticks, the advert yields `min(energy + n + 2, 10)` and adds something iff the ticks have not filled the energy |
| GameHub.PlayableIsPrefix | src/components/EnhancedGameHub.tsx:59-114 | minimum levels never decrease down the list; three games are open at level 1 and all six at level 15 |
| GameHub.PlayEnabledIffUnlocked | src/components/EnhancedGameHub.tsx:161-207 | with energy, play is enabled iff `level >= minLevel`; without energy it is disabled |
| GameHub.RewardsAgreeOnlyWhen | src/components/EnhancedGameHub.tsx:138-159 | the handlers as written issue the same calls as the intended ones only when the balance equals the reward (and the doubled energy lands where the added one would) |
| GameHub.XpRewardDoubleCredits | src/components/EnhancedGameHub.tsx:139-144 | after a reward the balance is `2 x reward` (+500 on level-up) whatever it was; experience is 0 on level-up, else `experience + xp` |
| GameHub.MissionRewardLosesBalance | src/components/EnhancedGameHub.tsx:139 | a balance of 1000 with a reward of 100 ends at 200 |
| GameHub.XpRewardIntendedCredits | src/components/EnhancedGameHub.tsx:138-145 | corrected: the balance and the total earned grow by the reward |
| GameHub.CoinsEnergyRewardDoubleCredits | src/components/EnhancedGameHub.tsx:156-159 | as written, from any state: balance `2 x coins`, plus the 500 bonus and a level when the handler's ten experience reaches the maximum; energy `min(2 x energy, 10)`; one spin counted; day and streak unchanged |
| GameHub.CoinsEnergyRewardIntendedCredits | src/components/EnhancedGameHub.tsx:391-394 | corrected, from any state: balance `coins + reward`, plus the 500 bonus and a level when the ten experience reaches the maximum; energy `min(energy + reward, 10)` |
| GameHub.RewardEnergyCapped | src/components/EnhancedGameHub.tsx:158 | the energy handed back never passes the cap |
| GameHub.NoticeWindows | src/components/EnhancedGameHub.tsx:117-136 | each notice shows iff its condition holds: level 5, 10 or 15; total earned in `[100000, 100500)`; spins in `[100, 105)` |
| GameHub.DailySpinsWrap | src/components/EnhancedGameHub.tsx:406 | for a non-negative total the counter is in `[0, 50)`, differs from the total by whole rounds, and repeats every 50 spins |
| AgeGate.Age | src/components/AgeVerification.tsx:68-79 | the age is the number of birthdays reached: the `age`th is on or before today and the next is after |
| AgeGate.AgeThreshold | src/components/AgeVerification.tsx:68-79 | age `>= n` iff the `n`th birthday is on or before today |
| AgeGate.AgeAtBirth | src/components/AgeVerification.tsx:68-79 | the age on the birth date is 0 |
| AgeGate.AgeMonotone | src/components/AgeVerification.tsx:68-79 | the age never decreases as today advances |
| AgeGate.GenerateDeviceId | src/components/AgeVerification.tsx:36-43 | returns the stored non-empty id if there is one; otherwise stores and returns a fresh one |
| AgeGate.DeviceIdStable | src/components/AgeVerification.tsx:36-43 | once generated, later calls return the same id and change nothing |
| AgeGate.CheckExisting | src/components/AgeVerification.tsx:45-66 | passes only a record younger than 30 days from this device with age at least 18; blocks only such a record without it; removes an unparsable record |
| AgeGate.StaleRecordIgnored | src/components/AgeVerification.tsx:50-53 | a record 30 days old or older decides nothing and changes nothing |
| AgeGate.FreshRecordDecides | src/components/AgeVerification.tsx:53-59 | a fresh record from this device passes iff its date parses and gives 18 or more; an unparsable date blocks |
| AgeGate.VerificationOrder | src/components/AgeVerification.tsx:81-121 | checks run in order: empty date, then unconfirmed, then age under 18, then accept; errors leave the storage alone; a decision stores a stamped record with this device's id |
| AgeGate.AcceptedThenRecognised | src/components/AgeVerification.tsx:45-121 | after an accepted form, a visit within 30 days on a later day passes and changes nothing |
| AgeGate.BlockedThenRechecked | src/components/AgeVerification.tsx:45-121 | after an under-age form, a visit within 30 days passes iff the 18th birthday has come, and blocks otherwise |

## Left out

- Rendering, animation, sound, haptics, toasts, particles, floating coins and mascot moods. These are presentation only.
- Timers and the spin durations: a spin is the gate plus its settlement, and a timer's callback is a later batch.
- The cosmetic reels shown while the premium slot spins: they are random and are overwritten by the final draw.
- The shared game-state store of the fullscreen slot (`useGameState`, `useGameActions`, `gameEvents`). It is not part of this model, so `spendCoins`, `addCoins` and `completeSpin` are returned as actions.
- The referral's random name, level and dates, and the referral code. Only the referral count and the bonus are modelled.
- Date-string parsing and time zones in the age gate: a birth date is a parsed triple or none, and today is a triple next to `now`.
- A stored record missing fields is not modelled: it is either unparsable or a full record.
- Binary floating-point rounding at exact boundaries: multipliers and weights are exact reals.
- `PerformanceMonitor`, the header, the debugger, the floating-coins background, routing and the styling configuration: diagnostic or pure UI.
- The hub's child panels (missions, collectibles, VIP, daily rewards) are not part of this model. The reward amounts they pass are parameters.
- `FortuneTigerSlot`, the slot the hub renders for the page, is not part of this model. The pre-spin credit that `Economy.StakeCountedTwice` follows is the pattern of the two zodiac slots.
- AdRewardAfterTicks: only regeneration ticks are modelled between the advert's acceptance and its grant; a spin in between is covered only by `Economy.AdRewardGain`, which holds for any in-range grant state.

## Findings

| source | as written | input that shows it | evidently intended | confidence | as-written member | corrected member |
|---|---|---|---|---|---|---|
| src/components/FullscreenSlotMachine.tsx:117 | a winning line records positions `lineIndex x 3 + i`, but cells render at `reelIndex x 3 + symbolIndex` | a winning middle row lights reel 1 instead of the row; a winning reel or diagonal records positions 9 to 23, which match no cell | each line records its own cells' rendered positions | high, not executed | FullscreenSlot.AsWrittenHighlight | FullscreenSlot.HighlightExact |
| src/components/FullscreenSlotMachine.tsx:105 | `checkWinningLines` is memoised with no dependencies, so it keeps the first render's `checkLineWin`, which pays the initial stake of 10 (line 119) | a window of tigers at a stake of 1 pays 4000, i.e. 4000 stakes; at a stake of 100, a middle row of tigers pays 500 instead of 5000 | every line pays the stake that was spent times its multiplier | high, not executed | FullscreenSlot.FrozenStakeTigers | FullscreenSlot.SpinPaysAtMost400 |
| src/components/EnhancedGameHub.tsx:139 | the reward handlers' parameter `coins` hides the balance prop, so `coins + coins` is twice the reward | balance 1000, mission reward 100: the balance becomes 200 | balance `+ reward` | high, not executed | GameHub.XpRewardDoubleCredits | GameHub.XpRewardIntendedCredits |
| src/components/EnhancedGameHub.tsx:157-158 | the VIP and daily handlers' `coins` and `energy` hide the props: balance `2 x coins`, energy `min(2 x energy, max)` | balance 1000, energy 5, VIP reward 100 coins and 2 energy: balance 200, energy 4 | both rewards added to the balances | high, not executed | GameHub.CoinsEnergyRewardDoubleCredits | GameHub.CoinsEnergyRewardIntendedCredits |
| src/pages/Index.tsx:69 | `handleCoinsChange` measures a change against the balance of its render; a zodiac slot credits `coins - bet + win` from its pre-spin props (PremiumZodiacSlot.tsx:373, ZodiacFortuneSlot.tsx:156) after the debit | initial state, stake 50, win 100: balance 1050, but the total earned stays 15000 and the last win reads 50; from 990 experience the debit batch levels up to 1450 and the credit sets 1050, losing the bonus | the win is added to the live balance, the total earned moves with it (+50), the last win reads 100 and the bonus stays | medium, not executed: the slot the page renders through the hub is not part of this model, so its wiring to these handlers is assumed from the two zodiac slots | Economy.StakeCountedTwice | Economy.StakeCountedOnce |

=== FILE: age_gate.dfy ===
/** The age gate (`AgeVerification`): the age computed from a birth date,
    the checks a submitted form goes through, the stored record it leaves,
    and the rule by which a stored record is accepted on the next visit.

    Browser storage is a value (`Storage`) threaded through the operations;
    `Date.now()` is an integer timestamp `now` in milliseconds, and today's
    calendar date a `(year, month, day)` triple. A birth date that does not
    parse (and so gives `NaN` as the age) is `None`. The fresh device id
    `device_<now>_<random>` is built from its two parts, given as strings. */
module AgeGate {
  import opened Wrappers

  /** A calendar date; only its order matters, so the month may be counted
      from 0 (`getMonth`) or from 1 as long as both sides agree. */
  datatype Date = Date(year: int, month: int, day: int)

  /** Dates in calendar order: year, then month, then day. */
  predicate DateLe(a: Date, b: Date) {
    a.year < b.year
    || (a.year == b.year && (a.month < b.month || (a.month == b.month && a.day <= b.day)))
  }

  const AdultAge: int := 18
  /** Thirty days, in milliseconds. */
  const ThirtyDays: int := 30 * 24 * 60 * 60 * 1000

  /** The `n`th birthday: the birth month and day, `n` years on. */
  function Anniversary(birth: Date, n: int): Date {
    Date(birth.year + n, birth.month, birth.day)
  }

  /** `calculateAge`: the year difference, one less when today's month and
      day come before the birth month and day. The result is the number of
      birthdays reached: the `age`th is on or before today, the next one is
      after it. */
  function Age(birth: Date, today: Date): (age: int)
    ensures DateLe(Anniversary(birth, age), today)
    ensures !DateLe(Anniversary(birth, age + 1), today)
  {
    var age := today.year - birth.year;
    var monthDiff := today.month - birth.month;
    if monthDiff < 0 || (monthDiff == 0 && today.day < birth.day) then age - 1 else age
  }

  /** Birthdays come in order. */
  lemma AnniversaryOrder(birth: Date, n: int, m: int)
    requires n <= m
    ensures DateLe(Anniversary(birth, n), Anniversary(birth, m))
  {
  }

  /** `DateLe` is transitive. */
  lemma DateLeTrans(a: Date, b: Date, c: Date)
    requires DateLe(a, b) && DateLe(b, c)
    ensures DateLe(a, c)
  {
  }

  /** Someone is at least `n` years old exactly when their `n`th birthday is
      on or before today. */
  lemma AgeThreshold(birth: Date, today: Date, n: int)
    ensures Age(birth, today) >= n <==> DateLe(Anniversary(birth, n), today)
  {
    var age := Age(birth, today);
    if age >= n {
      AnniversaryOrder(birth, n, age);
      DateLeTrans(Anniversary(birth, n), Anniversary(birth, age), today);
    } else if DateLe(Anniversary(birth, n), today) {
      AnniversaryOrder(birth, age + 1, n);
      DateLeTrans(Anniversary(birth, age + 1), Anniversary(birth, n), today);
      assert false;
    }
  }

  /** On the day of birth the age is 0. */
  lemma AgeAtBirth(birth: Date)
    ensures Age(birth, birth) == 0
  {
  }

  /** The age never goes down as today advances. */
  lemma AgeMonotone(birth: Date, today: Date, later: Date)
    requires DateLe(today, later)
    ensures Age(birth, today) <= Age(birth, later)
  {
    var age := Age(birth, today);
    DateLeTrans(Anniversary(birth, age), today, later);
    AgeThreshold(birth, later, age);
  }

  /** `calculateAge(...) >= 18` on a birth date that may not parse: a `NaN`
      age compares false with everything. */
  predicate IsAdult(birth: Option<Date>, today: Date) {
    birth.Some? && Age(birth.value, today) >= AdultAge
  }

  /** `calculateAge(...) < 18`, false as well for a `NaN` age. */
  predicate IsMinor(birth: Option<Date>, today: Date) {
    birth.Some? && Age(birth.value, today) < AdultAge
  }

  // ---------------------------------------------------------------- storage

  /** A stored verification or block record, or an item that does not
      parse as one. The form writes `confirmed` on a verification and
      `blocked` on a block; the acceptance rule reads neither. */
  datatype Stored =
    | Unparsable
    | Record(birthDate: Option<Date>, timestamp: int, deviceId: string, confirmed: bool, blocked: bool)

  /** The two storage items: `age_verification` and `device_id`. An empty
      item reads as absent, so it is `None` here. */
  datatype Storage = Storage(verification: Option<Stored>, deviceId: Option<string>)

  /** The device id to store when there is none. */
  function FreshDeviceId(stamp: string, suffix: string): (id: string)
    ensures |id| > 0
  {
    "device_" + stamp + "_" + suffix
  }

  predicate HasDeviceId(st: Storage) {
    st.deviceId.Some? && st.deviceId.value != ""
  }

  /** `generateDeviceId`: the stored id when there is a non-empty one,
      otherwise a fresh one, which is stored. */
  function GenerateDeviceId(st: Storage, stamp: string, suffix: string): (r: (string, Storage))
    ensures HasDeviceId(r.1) && r.1.deviceId == Some(r.0)
    ensures r.1.verification == st.verification
    ensures HasDeviceId(st) ==> r == (st.deviceId.value, st)
  {
    if HasDeviceId(st) then (st.deviceId.value, st)
    else
      var id := FreshDeviceId(stamp, suffix);
      (id, st.(deviceId := Some(id)))
  }

  /** Once an id has been generated, every later call returns it and leaves
      the storage alone, whatever fresh id it would have made. */
  lemma DeviceIdStable(st: Storage, stamp: string, suffix: string, stamp': string, suffix': string)
    ensures var (id, st1) := GenerateDeviceId(st, stamp, suffix);
      GenerateDeviceId(st1, stamp', suffix') == (id, st1)
  {
  }

  // ---------------------------------------------------------------- the stored record

  datatype CheckOutcome = NoDecision | Verified | Blocked

  /** `checkExistingVerification`: a stored record is looked at only when it
      is less than thirty days old; then (generating a device id if there is
      none) it must be from this device, and the age it holds, computed
      today, decides between passing and blocking. An item that does not
      parse is removed. Only the device id may change otherwise. */
  function CheckExisting(st: Storage, now: int, today: Date, stamp: string, suffix: string)
    : (r: (CheckOutcome, Storage))
    ensures r.0 == Verified ==>
      st.verification.Some? && st.verification.value.Record? &&
      st.verification.value.timestamp > now - ThirtyDays &&
      r.1.deviceId == Some(st.verification.value.deviceId) &&
      IsAdult(st.verification.value.birthDate, today)
    ensures r.0 == Blocked ==>
      st.verification.Some? && st.verification.value.Record? &&
      st.verification.value.timestamp > now - ThirtyDays &&
      r.1.deviceId == Some(st.verification.value.deviceId) &&
      !IsAdult(st.verification.value.birthDate, today)
    ensures st.verification == Some(Unparsable) ==> r == (NoDecision, st.(verification := None))
    ensures r.1.verification == st.verification || st.verification == Some(Unparsable)
  {
    match st.verification
    case None => (NoDecision, st)
    case Some(Unparsable) => (NoDecision, st.(verification := None))
    case Some(rec) =>
      if rec.timestamp > now - ThirtyDays then
        var (id, st1) := GenerateDeviceId(st, stamp, suffix);
        if rec.deviceId == id then
          (if IsAdult(rec.birthDate, today) then Verified else Blocked, st1)
        else (NoDecision, st1)
      else (NoDecision, st)
  }

  /** A record thirty days old or older decides nothing and touches
      nothing, not even the device id. */
  lemma StaleRecordIgnored(st: Storage, now: int, today: Date, stamp: string, suffix: string)
    requires st.verification.Some? && st.verification.value.Record?
    requires st.verification.value.timestamp <= now - ThirtyDays
    ensures CheckExisting(st, now, today, stamp, suffix) == (NoDecision, st)
  {
  }

  /** A fresh record from this device passes exactly when its birth date
      parses and gives 18 or more today, and blocks otherwise, including for
      a birth date that does not parse. */
  lemma FreshRecordDecides(st: Storage, now: int, today: Date, stamp: string, suffix: string)
    requires st.verification.Some? && st.verification.value.Record?
    requires st.verification.value.timestamp > now - ThirtyDays
    requires HasDeviceId(st) && st.deviceId.value == st.verification.value.deviceId
    ensures CheckExisting(st, now, today, stamp, suffix)
      == (if IsAdult(st.verification.value.birthDate, today) then Verified else Blocked, st)
    ensures st.verification.value.birthDate.None? ==> CheckExisting(st, now, today, stamp, suffix).0 == Blocked
  {
  }

  // ---------------------------------------------------------------- the form

  datatype VerifyOutcome = MissingDate | NotConfirmed | Underage | Accepted

  /** `handleVerification` for a form holding `birthDate` (`None` when left
      empty) and the confirmation box. `onVerified` is called exactly when
      the outcome is `Accepted`. */
  function HandleVerification(st: Storage, birthDate: Option<Date>, confirmed: bool,
                              now: int, today: Date, stamp: string, suffix: string)
    : (r: (VerifyOutcome, Storage))
  {
    if birthDate.None? then (MissingDate, st)
    else if !confirmed then (NotConfirmed, st)
    else
      var (id, st1) := GenerateDeviceId(st, stamp, suffix);
      if Age(birthDate.value, today) < AdultAge then
        (Underage, st1.(verification := Some(Record(birthDate, now, id, false, true))))
      else
        (Accepted, st1.(verification := Some(Record(birthDate, now, id, true, false))))
  }

  /** The checks run in order: an empty date, then the confirmation, then
      the age. Both errors leave the storage as it was; a decision stores a
      record stamped `now` that holds the date entered and this device's id,
      marked confirmed when accepted and blocked when under age. */
  lemma VerificationOrder(st: Storage, birthDate: Option<Date>, confirmed: bool,
                          now: int, today: Date, stamp: string, suffix: string)
    ensures var (outcome, st') := HandleVerification(st, birthDate, confirmed, now, today, stamp, suffix);
      (outcome == MissingDate <==> birthDate.None?) &&
      (outcome == NotConfirmed <==> birthDate.Some? && !confirmed) &&
      (outcome == Underage <==> confirmed && IsMinor(birthDate, today)) &&
      (outcome == Accepted <==> confirmed && IsAdult(birthDate, today)) &&
      (outcome in {MissingDate, NotConfirmed} ==> st' == st) &&
      (outcome in {Underage, Accepted} ==>
        HasDeviceId(st') && st'.verification.Some? &&
        st'.verification.value == Record(birthDate, now, st'.deviceId.value,
                                         outcome == Accepted, outcome == Underage))
  {
  }

  /** After an accepted form, a visit less than thirty days later on a day
      not before the form's passes without asking again, and changes
      nothing. */
  lemma AcceptedThenRecognised(st: Storage, birthDate: Option<Date>, now: int, today: Date,
                               stamp: string, suffix: string,
                               later: int, laterDay: Date, stamp': string, suffix': string)
    requires HandleVerification(st, birthDate, true, now, today, stamp, suffix).0 == Accepted
    requires later < now + ThirtyDays && DateLe(today, laterDay)
    ensures var st1 := HandleVerification(st, birthDate, true, now, today, stamp, suffix).1;
      CheckExisting(st1, later, laterDay, stamp', suffix') == (Verified, st1)
  {
    AgeMonotone(birthDate.value, today, laterDay);
  }

  /** After an under-age form, a visit less than thirty days later blocks
      exactly while the person is still under 18, and passes once they have
      turned 18 since. */
  lemma BlockedThenRechecked(st: Storage, birthDate: Option<Date>, now: int, today: Date,
                             stamp: string, suffix: string,
                             later: int, laterDay: Date, stamp': string, suffix': string)
    requires HandleVerification(st, birthDate, true, now, today, stamp, suffix).0 == Underage
    requires later < now + ThirtyDays
    ensures var st1 := HandleVerification(st, birthDate, true, now, today, stamp, suffix).1;
      CheckExisting(st1, later, laterDay, stamp', suffix') ==
        (if DateLe(Anniversary(birthDate.value, AdultAge), laterDay) then Verified else Blocked, st1)
  {
    AgeThreshold(birthDate.value, laterDay, AdultAge);
  }
}

=== FILE: bets.dfy ===
/** The `+`/`-` bet buttons of the two zodiac slots: one step up or down,
    never past the variant's bounds, and ignored at the bound. */
module Bets {
  import opened Numeric

  /** One click: `increment` raises the bet by `step` (capped at `hi`) when it
      is below `hi`; otherwise a decrement lowers it by `step` (floored at
      `lo`) when it is above `lo`; any other click leaves the bet alone. */
  function SteppedAdjust(bet: int, increment: bool, step: int, lo: int, hi: int): (r: int)
    requires 0 < step && lo <= hi
    ensures increment ==> bet <= r && (bet < hi ==> r <= hi)
    ensures !increment ==> r <= bet && (bet > lo ==> lo <= r)
    ensures r - bet <= step && bet - r <= step
    ensures lo <= bet <= hi ==> lo <= r <= hi
  {
    if increment && bet < hi then MinInt(bet + step, hi)
    else if !increment && bet > lo then MaxInt(bet - step, lo)
    else bet
  }

  /** The bet after a series of clicks, in order. */
  function AfterClicks(bet: int, clicks: seq<bool>, step: int, lo: int, hi: int): int
    requires 0 < step && lo <= hi
    decreases |clicks|
  {
    if clicks == [] then bet
    else AfterClicks(SteppedAdjust(bet, clicks[0], step, lo, hi), clicks[1..], step, lo, hi)
  }

  /** Starting from an in-range multiple of the step, with both bounds
      multiples of the step, every series of clicks keeps the bet in range and
      on the step grid. */
  lemma {:induction false} ClicksStayOnGrid(bet: int, clicks: seq<bool>, step: int, lo: int, hi: int)
    requires 0 < step && lo <= hi
    requires lo % step == 0 && hi % step == 0
    requires lo <= bet <= hi && bet % step == 0
    ensures var b := AfterClicks(bet, clicks, step, lo, hi); lo <= b <= hi && b % step == 0
    decreases |clicks|
  {
    if clicks != [] {
      var next := SteppedAdjust(bet, clicks[0], step, lo, hi);
      assert next % step == 0 by {
        ModShift(bet, step);
      }
      ClicksStayOnGrid(next, clicks[1..], step, lo, hi);
    }
  }
}

=== FILE: callbacks.dfy ===
/** The change callbacks a game component receives from its parent
    (`onCoinsChange`, `onEnergyChange`, `onExperienceChange`, `onLevelUp`).
    A component's handler is modelled as the list of calls it makes, in
    order; what the parent does with them is modelled separately. */
module Callbacks {

  datatype Callback =
    | CoinsChange(newCoins: int)
    | EnergyChange(newEnergy: int)
    | ExperienceChange(newExperience: int)
    | LevelUp

  /** The three balances a slot component reads from its props. */
  datatype Props = Props(coins: int, energy: int, experience: int)

  /** One call read as a plain setter: the named balance takes the new value.
      `LevelUp` carries no value and leaves the balances alone. */
  function Set(p: Props, c: Callback): Props {
    match c
    case CoinsChange(v) => p.(coins := v)
    case EnergyChange(v) => p.(energy := v)
    case ExperienceChange(v) => p.(experience := v)
    case LevelUp => p
  }

  /** Call `i` is the last coins change of the list. */
  predicate LastCoinsChange(calls: seq<Callback>, i: int) {
    0 <= i < |calls| && calls[i].CoinsChange? &&
    forall j :: i < j < |calls| ==> !calls[j].CoinsChange?
  }

  /** Call `i` is the last energy change of the list. */
  predicate LastEnergyChange(calls: seq<Callback>, i: int) {
    0 <= i < |calls| && calls[i].EnergyChange? &&
    forall j :: i < j < |calls| ==> !calls[j].EnergyChange?
  }

  /** Call `i` is the last experience change of the list. */
  predicate LastExperienceChange(calls: seq<Callback>, i: int) {
    0 <= i < |calls| && calls[i].ExperienceChange? &&
    forall j :: i < j < |calls| ==> !calls[j].ExperienceChange?
  }

  /** The balances after a parent that stores each value it is handed has
      received `calls` in order. */
  function Apply(p: Props, calls: seq<Callback>): (q: Props)
    ensures (forall i :: 0 <= i < |calls| ==> !calls[i].CoinsChange?) ==> q.coins == p.coins
    ensures |calls| > 0 && calls[|calls| - 1].CoinsChange? ==> q.coins == calls[|calls| - 1].newCoins
    ensures (forall i :: 0 <= i < |calls| ==> !calls[i].EnergyChange?) ==> q.energy == p.energy
    ensures |calls| > 0 && calls[|calls| - 1].EnergyChange? ==> q.energy == calls[|calls| - 1].newEnergy
    ensures (forall i :: 0 <= i < |calls| ==> !calls[i].ExperienceChange?) ==> q.experience == p.experience
    ensures |calls| > 0 && calls[|calls| - 1].ExperienceChange? ==> q.experience == calls[|calls| - 1].newExperience
    ensures forall i :: LastCoinsChange(calls, i) ==> q.coins == calls[i].newCoins
    ensures forall i :: LastEnergyChange(calls, i) ==> q.energy == calls[i].newEnergy
    ensures forall i :: LastExperienceChange(calls, i) ==> q.experience == calls[i].newExperience
    decreases |calls|
  {
    if calls == [] then p
    else Apply(Set(p, calls[0]), calls[1..])
  }
}

=== FILE: economy.dfy ===
/** The page-level game state and its handlers (`Index`): energy
    regeneration, the level-up effect, the handlers the game hub calls
    (`onCoinsChange`, `onEnergyChange`, `onExperienceChange`, `onLevelUp`)
    and the reward, spend and advertisement handlers.

    React batches the state updates of one event: functional updates
    (`setX(prev => ...)`) apply in order, plain ones overwrite, and a handler
    closure reads the state of the render it was created in. A batch of
    calls is therefore modelled as the calls applied in order to the state,
    with every closure read taken from the state at the start of the batch;
    the level-up effect runs once the batch is rendered. */
module Economy {
  import opened Numeric
  import opened Callbacks

  const MaxEnergy: int := 10
  const MaxExperience: int := 1000
  const LevelUpBonus: int := 500
  const ReferralBonus: int := 500
  /** Experience granted by every balance change. */
  const CoinsChangeXp: int := 10

  datatype GameState = GameState(
    coins: int,
    energy: int,
    level: int,
    experience: int,
    dailySpins: int,
    currentDay: int,
    totalSpins: int,
    totalCoinsEarned: int,
    dailyStreak: int,
    referrals: nat,
    lastWin: int)

  /** The state the page starts with. */
  const Initial: GameState := GameState(1000, 5, 1, 150, 3, 1, 45, 15000, 3, 0, 0)

  /** Energy within `[0, MaxEnergy]`. */
  predicate EnergyInRange(s: GameState) {
    0 <= s.energy <= MaxEnergy
  }

  // ---------------------------------------------------------------- regeneration

  /** One regeneration tick (every minute): one energy more, unless full. */
  function Regen(s: GameState): (t: GameState)
    ensures t.energy >= s.energy
    ensures s.energy <= MaxEnergy ==> t.energy <= MaxEnergy
    ensures t == s.(energy := t.energy)
  {
    if s.energy < MaxEnergy then s.(energy := s.energy + 1) else s
  }

  /** `n` ticks in a row. */
  function RegenTicks(s: GameState, n: nat): GameState
    decreases n
  {
    if n == 0 then s else RegenTicks(Regen(s), n - 1)
  }

  /** Starting at or below the cap, `n` ticks give `min(energy + n, cap)`
      and change nothing else; above the cap, ticks do nothing. */
  lemma {:induction false} RegenTicksClosedForm(s: GameState, n: nat)
    ensures s.energy <= MaxEnergy ==> RegenTicks(s, n).energy == MinInt(s.energy + n, MaxEnergy)
    ensures s.energy > MaxEnergy ==> RegenTicks(s, n).energy == s.energy
    ensures RegenTicks(s, n) == s.(energy := RegenTicks(s, n).energy)
    decreases n
  {
    if n > 0 {
      RegenTicksClosedForm(Regen(s), n - 1);
    }
  }

  // ---------------------------------------------------------------- level-up

  /** The level-up effect: once experience reaches the maximum, the level
      goes up by one, experience restarts at 0 (any excess is discarded) and
      the balance gets the level-up bonus. */
  function LevelUpEffect(s: GameState): (t: GameState)
    ensures s.experience >= MaxExperience ==>
      t == s.(level := s.level + 1, experience := 0, coins := s.coins + LevelUpBonus)
    ensures s.experience < MaxExperience ==> t == s
  {
    if s.experience >= MaxExperience then
      s.(level := s.level + 1, experience := 0, coins := s.coins + LevelUpBonus)
    else s
  }

  /** The effect settles after one run: running it again changes nothing,
      so one render gains at most one level however much experience there
      was; and the experience is always below the maximum afterwards. */
  lemma LevelUpSettles(s: GameState)
    ensures LevelUpEffect(LevelUpEffect(s)) == LevelUpEffect(s)
    ensures LevelUpEffect(s).experience < MaxExperience
    ensures LevelUpEffect(s).level <= s.level + 1
  {
  }

  /** 950 experience plus 200 gives level + 1 and experience 0, not 150. */
  lemma LevelUpDiscardsExcess()
    ensures LevelUpEffect(Initial.(experience := 1150)).experience == 0
    ensures LevelUpEffect(Initial.(experience := 1150)).level == 2
    ensures LevelUpEffect(Initial.(experience := 1150)).coins == 1500
  {
  }

  /** `onLevelUp`, as the page passes it: level + 1, experience 0, bonus. */
  function OnLevelUp(s: GameState): (t: GameState)
    ensures t.level == s.level + 1 && t.experience == 0 && t.coins == s.coins + LevelUpBonus
    ensures t == s.(level := t.level, experience := t.experience, coins := t.coins)
  {
    s.(level := s.level + 1, experience := 0, coins := s.coins + LevelUpBonus)
  }

  /** The explicit level-up agrees with the effect whenever the experience
      has reached the maximum. */
  lemma OnLevelUpMatchesEffect(s: GameState)
    requires s.experience >= MaxExperience
    ensures OnLevelUp(s) == LevelUpEffect(s)
  {
  }

  /** Every level gained is paid for with exactly one bonus: both ways of
      levelling up keep `coins - 500 x level` and never lower the level. */
  lemma LevelUpBonusPerLevel(s: GameState)
    ensures LevelUpEffect(s).coins - LevelUpBonus * LevelUpEffect(s).level == s.coins - LevelUpBonus * s.level
    ensures OnLevelUp(s).coins - LevelUpBonus * OnLevelUp(s).level == s.coins - LevelUpBonus * s.level
    ensures s.level <= LevelUpEffect(s).level && s.level < OnLevelUp(s).level
  {
  }

  // ---------------------------------------------------------------- hub callbacks

  /** `handleCoinsChange`: the balance takes the new value; the difference
      to the balance the handler was created with is added to the total
      earned and recorded as the last win (negative for a debit); every call
      grants ten experience. */
  function HandleCoinsChange(s: GameState, closureCoins: int, newCoins: int): (t: GameState)
    ensures t.coins == newCoins
    ensures t.totalCoinsEarned - s.totalCoinsEarned == newCoins - closureCoins == t.lastWin
    ensures t.experience == s.experience + CoinsChangeXp
    ensures t == s.(coins := t.coins, totalCoinsEarned := t.totalCoinsEarned,
                    experience := t.experience, lastWin := t.lastWin)
  {
    var winAmount := newCoins - closureCoins;
    s.(coins := newCoins,
       totalCoinsEarned := s.totalCoinsEarned + winAmount,
       experience := s.experience + CoinsChangeXp,
       lastWin := winAmount)
  }

  /** The total earned keeps pace with the balance exactly when the handler
      reads the balance it replaces: the gap `total earned - balance` moves
      by how far the handler's balance lags behind the live one. */
  lemma CoinsChangeDrift(s: GameState, closureCoins: int, newCoins: int)
    ensures var t := HandleCoinsChange(s, closureCoins, newCoins);
      (t.totalCoinsEarned - t.coins) - (s.totalCoinsEarned - s.coins) == s.coins - closureCoins
  {
  }

  /** `handleEnergyChange`: energy takes the new value and both spin counters
      go up by one. */
  function HandleEnergyChange(s: GameState, newEnergy: int): (t: GameState)
    ensures t.energy == newEnergy
    ensures t.dailySpins == s.dailySpins + 1 && t.totalSpins == s.totalSpins + 1
    ensures t == s.(energy := t.energy, dailySpins := t.dailySpins, totalSpins := t.totalSpins)
  {
    s.(energy := newEnergy, dailySpins := s.dailySpins + 1, totalSpins := s.totalSpins + 1)
  }

  /** One call from the hub, handled by the page; `start` is the state the
      handlers were created with. `onExperienceChange` is the plain setter. */
  function Dispatch(start: GameState, s: GameState, c: Callback): GameState {
    match c
    case CoinsChange(v) => HandleCoinsChange(s, start.coins, v)
    case EnergyChange(v) => HandleEnergyChange(s, v)
    case ExperienceChange(v) => s.(experience := v)
    case LevelUp => OnLevelUp(s)
  }

  /** The calls of one batch, in order. */
  function DispatchAll(start: GameState, s: GameState, calls: seq<Callback>): GameState
    decreases |calls|
  {
    if calls == [] then s else DispatchAll(start, Dispatch(start, s, calls[0]), calls[1..])
  }

  /** One event's calls, then the level-up effect on the rendered state. */
  function Batch(s: GameState, calls: seq<Callback>): GameState {
    LevelUpEffect(DispatchAll(s, s, calls))
  }

  /** The number of energy changes among the calls. */
  function EnergyChanges(calls: seq<Callback>): nat
    decreases |calls|
  {
    if calls == [] then 0 else (if calls[0].EnergyChange? then 1 else 0) + EnergyChanges(calls[1..])
  }

  /** Each energy change counts one spin, today and in total, and nothing
      else touches the counters. */
  lemma {:induction false} SpinsCounted(start: GameState, s: GameState, calls: seq<Callback>)
    ensures DispatchAll(start, s, calls).totalSpins == s.totalSpins + EnergyChanges(calls)
    ensures DispatchAll(start, s, calls).dailySpins == s.dailySpins + EnergyChanges(calls)
    decreases |calls|
  {
    if calls != [] {
      SpinsCounted(start, Dispatch(start, s, calls[0]), calls[1..]);
    }
  }

  /** A debit batch of a slot (energy down by one, balance down by the
      stake) counts a spin, records minus the stake as the last win and in
      the total earned, and grants ten experience; when that reaches the
      maximum, the level-up effect adds its bonus. */
  lemma DebitBatch(s: GameState, bet: int)
    ensures var t := Batch(s, [EnergyChange(s.energy - 1), CoinsChange(s.coins - bet)]);
      var up := s.experience + CoinsChangeXp >= MaxExperience;
      t.energy == s.energy - 1 &&
      t.totalSpins == s.totalSpins + 1 && t.dailySpins == s.dailySpins + 1 &&
      t.lastWin == -bet && t.totalCoinsEarned == s.totalCoinsEarned - bet &&
      t.coins == s.coins - bet + (if up then LevelUpBonus else 0) &&
      t.experience == (if up then 0 else s.experience + CoinsChangeXp) &&
      t.level == s.level + (if up then 1 else 0)
  {
    var calls := [EnergyChange(s.energy - 1), CoinsChange(s.coins - bet)];
    var s1 := Dispatch(s, s, calls[0]);
    assert calls[1..] == [CoinsChange(s.coins - bet)];
    assert DispatchAll(s, s, calls) == DispatchAll(s, s1, calls[1..]);
    assert DispatchAll(s, s1, calls[1..]) == DispatchAll(s, Dispatch(s, s1, calls[1]), []);
  }

  /** A later event (a timer set during an earlier one) runs the handlers
      of the render it was set in: the calls act on the current state but
      read the balance of `closure`. */
  function BatchFrom(closure: GameState, s: GameState, calls: seq<Callback>): GameState {
    LevelUpEffect(DispatchAll(closure, s, calls))
  }

  /** A slot spin as the zodiac slots issue it: the debit batch, then, when
      the reels stop, the credit of `pre-spin balance - stake + win` from
      the handlers of the pre-spin render. The total earned loses the stake
      twice and the last win omits it; and when the debit batch levels up,
      the credit overwrites the balance that held the level-up bonus, so
      the bonus is lost although the level is kept. */
  lemma StakeCountedTwice(s: GameState, bet: int, amount: int)
    ensures var debited := Batch(s, [EnergyChange(s.energy - 1), CoinsChange(s.coins - bet)]);
      var settled := BatchFrom(s, debited, [CoinsChange(s.coins - bet + amount)]);
      var bonusKept := s.experience + CoinsChangeXp < MaxExperience <= s.experience + 2 * CoinsChangeXp;
      settled.coins == s.coins - bet + amount + (if bonusKept then LevelUpBonus else 0) &&
      settled.level == s.level + (if s.experience + 2 * CoinsChangeXp >= MaxExperience then 1 else 0) &&
      settled.totalCoinsEarned == s.totalCoinsEarned + amount - 2 * bet &&
      settled.lastWin == amount - bet
  {
    DebitBatch(s, bet);
    var debited := Batch(s, [EnergyChange(s.energy - 1), CoinsChange(s.coins - bet)]);
    var c := CoinsChange(s.coins - bet + amount);
    assert DispatchAll(s, debited, [c]) == DispatchAll(s, Dispatch(s, debited, c), []);
  }

  /** With the stake 50 and a win of 100 from the initial state, the balance
      is 1050 but the total earned stays at 15000. */
  lemma StakeCountedTwiceExample()
    ensures var debited := Batch(Initial, [EnergyChange(4), CoinsChange(950)]);
      var settled := BatchFrom(Initial, debited, [CoinsChange(1050)]);
      settled.coins == 1050 && settled.totalCoinsEarned == 15000
  {
    StakeCountedTwice(Initial, 50, 100);
  }

  /** From 990 experience the debit batch levels up to 1450 coins, and the
      credit then sets 1050: the bonus of 500 is gone. */
  lemma StakeLosesBonusExample()
    ensures var s := Initial.(experience := 990);
      var debited := Batch(s, [EnergyChange(4), CoinsChange(950)]);
      var settled := BatchFrom(s, debited, [CoinsChange(1050)]);
      debited.coins == 1450 && debited.level == 2 && settled.coins == 1050 && settled.level == 2
  {
    DebitBatch(Initial.(experience := 990), 50);
    StakeCountedTwice(Initial.(experience := 990), 50, 100);
  }

  /** The balance handler measuring each change against the balance it
      replaces, so that the total earned follows the balance. */
  function DispatchAllLive(s: GameState, calls: seq<Callback>): GameState
    decreases |calls|
  {
    if calls == [] then s else DispatchAllLive(Dispatch(s, s, calls[0]), calls[1..])
  }

  /** The number of level-up calls among the calls. */
  function LevelUps(calls: seq<Callback>): nat
    decreases |calls|
  {
    if calls == [] then 0 else (if calls[0] == LevelUp then 1 else 0) + LevelUps(calls[1..])
  }

  /** Measured that way, every call but a level-up moves the total earned
      exactly as much as the balance; each level-up adds its bonus to the
      balance alone. */
  lemma {:induction false} LedgerTracksBalance(s: GameState, calls: seq<Callback>)
    ensures var t := DispatchAllLive(s, calls);
      t.totalCoinsEarned - t.coins == s.totalCoinsEarned - s.coins - LevelUpBonus * LevelUps(calls)
    decreases |calls|
  {
    if calls != [] {
      assert calls == [calls[0]] + calls[1..];
      LedgerTracksBalance(Dispatch(s, s, calls[0]), calls[1..]);
    }
  }

  /** The debit batch reads the same balance live as from its render. */
  lemma DebitLive(s: GameState, bet: int)
    ensures DispatchAllLive(s, [EnergyChange(s.energy - 1), CoinsChange(s.coins - bet)]) ==
            DispatchAll(s, s, [EnergyChange(s.energy - 1), CoinsChange(s.coins - bet)])
  {
    var calls := [EnergyChange(s.energy - 1), CoinsChange(s.coins - bet)];
    var s1 := Dispatch(s, s, calls[0]);
    assert calls[1..] == [CoinsChange(s.coins - bet)];
    assert DispatchAllLive(s, calls) == DispatchAllLive(s1, calls[1..]);
    assert DispatchAll(s, s, calls) == DispatchAll(s, s1, calls[1..]);
    assert DispatchAllLive(s1, calls[1..]) == DispatchAllLive(Dispatch(s1, s1, calls[1]), []);
    assert DispatchAll(s, s1, calls[1..]) == DispatchAll(s, Dispatch(s, s1, calls[1]), []);
  }

  /** So the spin above, with the win credited on top of the live balance
      and measured that way, adds `win - stake` to the total earned, records
      the win itself as the last win, and keeps every level-up bonus. */
  lemma StakeCountedOnce(s: GameState, bet: int, amount: int)
    ensures var debited := LevelUpEffect(DispatchAllLive(s, [EnergyChange(s.energy - 1), CoinsChange(s.coins - bet)]));
      var settled := LevelUpEffect(DispatchAllLive(debited, [CoinsChange(debited.coins + amount)]));
      var up := s.experience + 2 * CoinsChangeXp >= MaxExperience;
      settled.coins == s.coins - bet + amount + (if up then LevelUpBonus else 0) &&
      settled.level == s.level + (if up then 1 else 0) &&
      settled.totalCoinsEarned == s.totalCoinsEarned + amount - bet &&
      settled.lastWin == amount
  {
    DebitLive(s, bet);
    DebitBatch(s, bet);
    var debited := LevelUpEffect(DispatchAllLive(s, [EnergyChange(s.energy - 1), CoinsChange(s.coins - bet)]));
    var c := CoinsChange(debited.coins + amount);
    assert DispatchAllLive(debited, [c]) == DispatchAllLive(Dispatch(debited, debited, c), []);
  }

  // ---------------------------------------------------------------- rewards and spending

  /** `handleClaimDailyReward`: coins added, energy added up to the cap,
      next day, streak one longer. */
  function ClaimDailyReward(s: GameState, day: int, rewardCoins: int, rewardEnergy: int): (t: GameState)
    ensures t.coins == s.coins + rewardCoins
    ensures t.energy == MinInt(s.energy + rewardEnergy, MaxEnergy)
    ensures t.currentDay == s.currentDay + 1 && t.dailyStreak == s.dailyStreak + 1
    ensures t == s.(coins := t.coins, energy := t.energy, currentDay := t.currentDay,
                    dailyStreak := t.dailyStreak)
  {
    s.(coins := s.coins + rewardCoins,
       energy := MinInt(s.energy + rewardEnergy, MaxEnergy),
       currentDay := s.currentDay + 1,
       dailyStreak := s.dailyStreak + 1)
  }

  /** `n` daily claims in a row, the `k`-th with the coins and energy of
      `rewards[k]`. */
  function ClaimAll(s: GameState, rewards: seq<(int, int)>): GameState
    decreases |rewards|
  {
    if rewards == [] then s
    else ClaimAll(ClaimDailyReward(s, s.currentDay, rewards[0].0, rewards[0].1), rewards[1..])
  }

  /** The coins of all the rewards. */
  function RewardCoins(rewards: seq<(int, int)>): int
    decreases |rewards|
  {
    if rewards == [] then 0 else rewards[0].0 + RewardCoins(rewards[1..])
  }

  /** Claims add up: the balance grows by the sum of the rewarded coins, the
      day and the streak advance together by the number of claims, and
      levels, experience and counters stay as they were. The `day` argument
      plays no part. */
  lemma {:induction false} ClaimsAccumulate(s: GameState, rewards: seq<(int, int)>)
    ensures var t := ClaimAll(s, rewards);
      t.coins == s.coins + RewardCoins(rewards) &&
      t.currentDay == s.currentDay + |rewards| && t.dailyStreak == s.dailyStreak + |rewards| &&
      t.level == s.level && t.experience == s.experience && t.totalSpins == s.totalSpins &&
      t.totalCoinsEarned == s.totalCoinsEarned
    ensures forall d1, d2, c, e :: ClaimDailyReward(s, d1, c, e) == ClaimDailyReward(s, d2, c, e)
    decreases |rewards|
  {
    if rewards != [] {
      ClaimsAccumulate(ClaimDailyReward(s, s.currentDay, rewards[0].0, rewards[0].1), rewards[1..]);
    }
  }

  /** `handleAddReferral`: one more referral and the referral bonus. The
      referral's generated name, level and dates are not modelled. */
  function AddReferral(s: GameState): (t: GameState)
    ensures t.referrals == s.referrals + 1 && t.coins == s.coins + ReferralBonus
    ensures t == s.(referrals := t.referrals, coins := t.coins)
  {
    s.(referrals := s.referrals + 1, coins := s.coins + ReferralBonus)
  }

  /** `n` referrals in a row. */
  function AddReferrals(s: GameState, n: nat): GameState
    decreases n
  {
    if n == 0 then s else AddReferrals(AddReferral(s), n - 1)
  }

  /** Each referral is paid exactly once: `n` referrals add `n` to the count
      and `500 x n` coins, and touch nothing else. */
  lemma {:induction false} ReferralsAccumulate(s: GameState, n: nat)
    ensures AddReferrals(s, n) == s.(referrals := s.referrals + n, coins := s.coins + ReferralBonus * n)
    decreases n
  {
    if n > 0 {
      ReferralsAccumulate(AddReferral(s), n - 1);
    }
  }

  /** `handleClaimAchievementReward` and `handleGainCoins`: coins added. */
  function GainCoins(s: GameState, amount: int): (t: GameState)
    ensures t.coins == s.coins + amount && t == s.(coins := t.coins)
  {
    s.(coins := s.coins + amount)
  }

  /** `handleSpendCoins`: coins taken with no lower bound. */
  function SpendCoins(s: GameState, amount: int): (t: GameState)
    ensures t.coins == s.coins - amount && t == s.(coins := t.coins)
  {
    s.(coins := s.coins - amount)
  }

  /** Spending more than the balance leaves it negative. */
  lemma SpendingCanOverdraw()
    ensures SpendCoins(Initial, 1500).coins == -500
    ensures GainCoins(SpendCoins(Initial, 1500), 1500) == Initial
  {
  }

  /** Spending and gaining the same amount undo each other, in either
      order, and a spend drives the balance below zero exactly when it
      exceeds the balance. */
  lemma SpendGainInverse(s: GameState, amount: int)
    ensures GainCoins(SpendCoins(s, amount), amount) == s
    ensures SpendCoins(GainCoins(s, amount), amount) == s
    ensures SpendCoins(s, amount).coins < 0 <==> amount > s.coins
  {
  }

  /** `handleGainEnergy`: energy added up to the cap. */
  function GainEnergy(s: GameState, amount: int): (t: GameState)
    ensures t.energy == MinInt(s.energy + amount, MaxEnergy) && t == s.(energy := t.energy)
  {
    s.(energy := MinInt(s.energy + amount, MaxEnergy))
  }

  /** Capped gains compose: from at most the cap, gaining `a` and then a
      non-negative `b` is gaining `a + b` at once. */
  lemma GainEnergyComposes(s: GameState, a: int, b: int)
    requires s.energy <= MaxEnergy && b >= 0
    ensures GainEnergy(GainEnergy(s, a), b) == GainEnergy(s, a + b)
  {
  }

  /** `handleWatchAd` is refused when the energy shown is already full. */
  predicate WatchAdAccepted(energy: int) {
    energy < MaxEnergy
  }

  /** The grant, applied two seconds later to the state at that time: two
      energy up to the cap. */
  function AdReward(s: GameState): (t: GameState)
    ensures t == GainEnergy(s, 2)
  {
    s.(energy := MinInt(s.energy + 2, MaxEnergy))
  }

  /** Every handler that touches energy keeps it within `[0, MaxEnergy]`
      when the amounts it adds are not negative; an energy change does so
      when the new value is in range. */
  lemma EnergyStaysInRange(s: GameState, amount: int, newEnergy: int)
    requires EnergyInRange(s) && amount >= 0
    ensures EnergyInRange(Regen(s))
    ensures EnergyInRange(GainEnergy(s, amount))
    ensures EnergyInRange(AdReward(s))
    ensures forall day, rc :: EnergyInRange(ClaimDailyReward(s, day, rc, amount))
    ensures 0 <= newEnergy <= MaxEnergy ==> EnergyInRange(HandleEnergyChange(s, newEnergy))
  {
  }

  /** The grant, whatever state it meets within the range, never lowers
      energy, and raises it exactly when it is below the cap, by two unless
      that passes the cap. */
  lemma AdRewardGain(s: GameState)
    requires EnergyInRange(s)
    ensures AdReward(s).energy >= s.energy
    ensures AdReward(s).energy > s.energy <==> s.energy < MaxEnergy
    ensures AdReward(s).energy == (if s.energy + 2 <= MaxEnergy then s.energy + 2 else MaxEnergy)
  {
  }

  /** The advert is accepted on the render's energy `a.energy`, and granted
      two seconds later on the live state; with `n` regeneration ticks in
      between, the grant yields `min(a.energy + n + 2, 10)` and adds
      something exactly when the ticks have not already filled the energy. */
  lemma AdRewardAfterTicks(a: GameState, n: nat)
    requires WatchAdAccepted(a.energy)
    ensures var s := RegenTicks(a, n);
      AdReward(s).energy == MinInt(a.energy + n + 2, MaxEnergy) &&
      (AdReward(s).energy > s.energy <==> a.energy + n < MaxEnergy)
  {
    RegenTicksClosedForm(a, n);
  }
}

=== FILE: fortune_slot.dfy ===
/** The fortune zodiac slot: a fixed-weight symbol draw, a first-match row
    payout without bonuses, the spin gate and settlement, and the bet
    buttons. `Math.random` values are parameters; the floating-coin
    background and the turbo timing are presentation. */
module FortuneSlot {
  import opened Grid
  import opened Numeric
  import opened Sprites
  import opened Zodiac
  import opened Callbacks
  import Bets

  const Symbols: seq<ZodiacSymbol> := [
    ZodiacSymbol("🐯", "Tigre Dourado", 15, Legendary),
    ZodiacSymbol("🦊", "Raposa da Sorte", 8, Rare),
    ZodiacSymbol("🐸", "Sapo da Prosperidade", 6, Rare),
    ZodiacSymbol("🍊", "Laranja da Fortuna", 4, Common),
    ZodiacSymbol("🧧", "Envelope Vermelho", 5, Common),
    ZodiacSymbol("📜", "Pergaminho Místico", 7, Rare)
  ]

  const InitialBet: int := 50
  const MinBet: int := 25
  const MaxBet: int := 500
  const BetStep: int := 25

  /** The highest symbol multiplier (the tiger). */
  const TopMultiplier: nat := 15

  /** Legendary below 0.1, rare below 0.4, common from there on. */
  function DrawRarity(r: real): (rarity: Rarity)
    ensures rarity != Epic
    ensures rarity == Legendary <==> r < 0.1
    ensures rarity == Rare <==> 0.1 <= r < 0.4
    ensures rarity == Common <==> r >= 0.4
  {
    if r < 0.1 then Legendary
    else if r < 0.1 + 0.3 then Rare
    else Common
  }

  /** `getRandomSymbol`: the rarity roll `r`, then the pick `u` among the
      symbols of that rarity. Each rarity the roll can give has a symbol, so
      the pick is always defined and always has the rolled rarity. */
  function Draw(r: real, u: real): (s: ZodiacSymbol)
    requires 0.0 <= r < 1.0 && 0.0 <= u < 1.0
    ensures s in Symbols && s.rarity == DrawRarity(r)
  {
    var rarity := DrawRarity(r);
    var pool := Zodiac.OfRarity(Symbols, rarity);
    PoolsNonEmpty(rarity);
    OfRarityMembers(Symbols, rarity);
    assert pool[PickIndex(u, |pool|)] in pool;
    pool[PickIndex(u, |pool|)]
  }

  /** Every rarity of this slot has at least one symbol, so the filtered
      pool `getRandomSymbol` indexes is never empty. */
  lemma PoolsNonEmpty(rarity: Rarity)
    requires rarity != Epic
    ensures |Zodiac.OfRarity(Symbols, rarity)| > 0
  {
    OfRarityMembers(Symbols, rarity);
    if rarity == Legendary {
      assert Symbols[0] in Zodiac.OfRarity(Symbols, rarity);
    } else if rarity == Rare {
      assert Symbols[1] in Zodiac.OfRarity(Symbols, rarity);
    } else {
      assert Symbols[3] in Zodiac.OfRarity(Symbols, rarity);
    }
  }

  datatype WinResult =
    | NoWin
    | Win(amount: int, symbol: ZodiacSymbol, line: RowLine)
  {
    function Amount(): int {
      if Win? then amount else 0
    }
  }

  /** `checkWin`: the first of middle, top, bottom whose names match pays;
      the middle row pays stake x multiplier, the other two half of that,
      rounded down. */
  function CheckWin(g: seq<seq<ZodiacSymbol>>, bet: int): (w: WinResult)
    requires IsGrid(g)
    ensures w.NoWin? <==> forall l: RowLine :: !RowMatches(g, l)
    ensures w.Win? ==> RowMatches(g, w.line) && w.symbol == g[0][RowIndex(w.line)]
    ensures w.Win? ==> forall l: RowLine :: Before(l, w.line) ==> !RowMatches(g, l)
    ensures w.Win? && w.line == Middle ==> w.amount == bet * w.symbol.multiplier
    ensures w.Win? && w.line != Middle ==> w.amount == ((bet * w.symbol.multiplier) as real * 0.5).Floor
  {
    match FirstWinningRow(g)
    case None => NoWin
    case Some(line) =>
      var symbol := g[0][RowIndex(line)];
      if line == Middle then Win(bet * symbol.multiplier, symbol, Middle)
      else Win(((bet * symbol.multiplier) as real * 0.5).Floor, symbol, line)
  }

  /** Flooring half of an integer is integer halving (rounding down). */
  lemma HalfFloor(x: int)
    ensures (x as real * 0.5).Floor == x / 2
  {
    var q := x / 2;
    assert x == 2 * q || x == 2 * q + 1;
    assert q as real <= x as real * 0.5 < q as real + 1.0;
  }

  /** No spin pays more than the tiger on the middle row: fifteen stakes. A
      side row pays half of what the same symbol pays in the middle, rounded
      down. */
  lemma WinBounded(g: seq<seq<ZodiacSymbol>>, bet: int)
    requires IsGrid(g)
    requires forall c, r :: 0 <= c < 3 && 0 <= r < 3 ==> g[c][r] in Symbols
    requires bet >= 0
    ensures var w := CheckWin(g, bet);
      0 <= w.Amount() <= bet * TopMultiplier &&
      (w.Win? && w.line != Middle ==> w.amount == (bet * w.symbol.multiplier) / 2)
  {
    var w := CheckWin(g, bet);
    if w.Win? {
      assert w.symbol in Symbols;
      assert w.symbol.multiplier <= TopMultiplier;
      HalfFloor(bet * w.symbol.multiplier);
      assert bet * w.symbol.multiplier <= bet * TopMultiplier;
    }
  }

  /** The component's own state that a spin writes. */
  datatype SlotState = SlotState(bet: int, lastWin: int)

  datatype Rejection = InsufficientEnergy | InsufficientCoins

  datatype SpinOutcome =
    | Rejected(reason: Rejection)
    | Spun(calls: seq<Callback>, grid: seq<seq<ZodiacSymbol>>, result: WinResult, next: SlotState)

  function FillGrid(draws: seq<seq<(real, real)>>): (g: seq<seq<ZodiacSymbol>>)
    requires ValidDraws(draws)
    ensures IsGrid(g)
    ensures forall c, r :: 0 <= c < 3 && 0 <= r < 3 ==> g[c][r] == Draw(draws[c][r].0, draws[c][r].1)
  {
    seq(3, c requires 0 <= c < 3 =>
      seq(3, r requires 0 <= r < 3 => Draw(draws[c][r].0, draws[c][r].1)))
  }

  /** After the reels stop on `g` with result `w`: energy and stake were
      debited up front; a win credits `pre-spin coins - stake + win`. */
  function Settle(p: Props, st: SlotState, g: seq<seq<ZodiacSymbol>>, w: WinResult): (o: SpinOutcome)
    ensures o.Spun? && o.grid == g && o.result == w && o.next.bet == st.bet
    ensures |o.calls| >= 2 &&
      o.calls[0] == EnergyChange(p.energy - 1) && o.calls[1] == CoinsChange(p.coins - st.bet)
    ensures w.Win? ==> o.next.lastWin == w.amount
    ensures w.NoWin? ==> o.next.lastWin == st.lastWin
  {
    var debit := [EnergyChange(p.energy - 1), CoinsChange(p.coins - st.bet)];
    if w.Win? then Spun(debit + [CoinsChange(p.coins - st.bet + w.amount)], g, w, st.(lastWin := w.amount))
    else Spun(debit, g, w, st)
  }

  /** Settlement as the parent's balances see it: one energy spent, and the
      balance ends at `coins - stake + win` (win 0 on a loss). */
  lemma SettleBalances(p: Props, st: SlotState, g: seq<seq<ZodiacSymbol>>, w: WinResult)
    ensures Apply(p, Settle(p, st, g, w).calls) ==
      Props(p.coins - st.bet + w.Amount(), p.energy - 1, p.experience)
  {
    var calls := Settle(p, st, g, w).calls;
    if w.Win? {
      assert |calls| == 3 && calls[2].CoinsChange?;
      assert LastEnergyChange(calls, 0) && LastCoinsChange(calls, 2);
    } else {
      assert |calls| == 2;
      assert LastEnergyChange(calls, 0) && LastCoinsChange(calls, 1);
    }
  }

  /** `spin`: refused (energy checked first) without energy or with a
      balance below the stake; otherwise drawn, evaluated and settled. */
  function Spin(p: Props, st: SlotState, draws: seq<seq<(real, real)>>): (o: SpinOutcome)
    requires ValidDraws(draws)
    ensures o.Rejected? <==> p.energy < 1 || p.coins < st.bet
    ensures o.Rejected? ==> (o.reason == InsufficientEnergy <==> p.energy < 1)
    ensures o.Spun? ==> IsGrid(o.grid) && o == Settle(p, st, o.grid, CheckWin(o.grid, st.bet))
    ensures o.Spun? ==> forall c, r :: 0 <= c < 3 && 0 <= r < 3 ==>
      o.grid[c][r] == Draw(draws[c][r].0, draws[c][r].1)
  {
    if p.energy < 1 then Rejected(InsufficientEnergy)
    else if p.coins < st.bet then Rejected(InsufficientCoins)
    else
      var g := FillGrid(draws);
      Settle(p, st, g, CheckWin(g, st.bet))
  }

  /** `adjustBet`: steps of 25 within [25, 500]. */
  function AdjustBet(bet: int, increment: bool): (r: int)
    ensures MinBet <= bet <= MaxBet ==> MinBet <= r <= MaxBet
    ensures increment ==> r >= bet
    ensures !increment ==> r <= bet
  {
    Bets.SteppedAdjust(bet, increment, BetStep, MinBet, MaxBet)
  }

  /** From the initial stake of 50, every series of clicks leaves the stake
      a multiple of 25 between 25 and 500. */
  lemma BetStaysInRange(clicks: seq<bool>)
    ensures var b := Bets.AfterClicks(InitialBet, clicks, BetStep, MinBet, MaxBet);
      MinBet <= b <= MaxBet && b % BetStep == 0
  {
    Bets.ClicksStayOnGrid(InitialBet, clicks, BetStep, MinBet, MaxBet);
  }
}

=== FILE: fullscreen_slot.dfy ===
/** The fullscreen sprite slot: a cumulative-weight symbol draw over the
    sprite catalog, eight paylines (three rows, three reels, two diagonals)
    that all pay, the total win, the spin handler's calls into the shared
    game actions, the effect tier, auto-spin and the bet clamp. The shared
    game-state store (`spendCoins`, `addCoins`, `completeSpin`) is not part of
    this model: its calls are returned as data. */
module FullscreenSlot {
  import opened Wrappers
  import opened Numeric
  import opened Grid
  import opened Sprites

  const InitialBet: int := 10

  /** The rarities and weights in the order the draw walks them. */
  const Weights: seq<(Rarity, real)> := [(Legendary, 0.05), (Rare, 0.25), (Common, 0.70)]

  /** The sum of the first `k` weights. */
  function PrefixWeight(k: nat): real
    requires k <= |Weights|
  {
    if k == 0 then 0.0 else PrefixWeight(k - 1) + Weights[k - 1].1
  }

  lemma PrefixWeights()
    ensures PrefixWeight(1) == 0.05 && PrefixWeight(2) == 0.30 && PrefixWeight(3) == 1.0
  {
  }

  // ---------------------------------------------------------------- draw

  /** The rarity band of a roll, in closed form: legendary up to 0.05
      inclusive, rare up to 0.30 inclusive, common above. */
  function WeightedRarity(r: real): Rarity {
    if r <= 0.05 then Legendary
    else if r <= 0.30 then Rare
    else Common
  }

  /** The symbol a cell shows for rarity roll `r` and pick `u`: the pick
      among the catalog symbols of the roll's band, or the first catalog
      symbol when the roll exceeds every cumulative weight. */
  function WeightedDraw(r: real, u: real): (s: SpriteSymbol)
    requires 0.0 <= u < 1.0
    ensures s in Catalog && s.rarity != Epic
    ensures r <= 1.0 ==> s.rarity == WeightedRarity(r)
  {
    if r > 1.0 then Catalog[0]
    else
      PoolNonEmpty(WeightedRarity(r));
      var pool := OfRarity(WeightedRarity(r));
      pool[PickIndex(u, |pool|)]
  }

  /** Every rarity but epic has a catalog symbol. */
  lemma PoolNonEmpty(rarity: Rarity)
    requires rarity != Epic
    ensures |OfRarity(rarity)| > 0
  {
    match rarity
    case Legendary => assert Catalog[0] in OfRarity(rarity);
    case Rare => assert Catalog[2] in OfRarity(rarity);
    case Common => assert Catalog[4] in OfRarity(rarity);
  }

  /** The entry at which the walk over the weights stops is the band of the
      roll. */
  lemma WeightStep(i: nat, r: real)
    requires i < |Weights|
    requires i > 0 ==> r > PrefixWeight(i)
    requires r <= PrefixWeight(i + 1)
    ensures r <= 1.0 && Weights[i].0 == WeightedRarity(r) && Weights[i].0 != Epic
  {
    PrefixWeights();
  }

  /** `getWeightedRandomSymbol`, as the loop over the weights it is: the
      cumulative weight grows entry by entry and the first entry whose
      cumulative weight reaches the roll decides the rarity. */
  method WeightedRandomSymbol(r: real, u: real) returns (s: SpriteSymbol)
    requires 0.0 <= u < 1.0
    ensures s == WeightedDraw(r, u)
  {
    var cumulative := 0.0;
    var i := 0;
    while i < |Weights|
      invariant 0 <= i <= |Weights|
      invariant cumulative == PrefixWeight(i)
      invariant i > 0 ==> r > cumulative
    {
      cumulative := cumulative + Weights[i].1;
      if r <= cumulative {
        WeightStep(i, r);
        PoolNonEmpty(Weights[i].0);
        var symbolsOfRarity := OfRarity(Weights[i].0);
        return symbolsOfRarity[PickIndex(u, |symbolsOfRarity|)];
      }
      i := i + 1;
    }
    PrefixWeights();
    return Catalog[0];
  }

  /** With a roll from `Math.random` (in [0, 1)) the fallback is never taken
      and the fox, the only epic symbol, never appears. */
  lemma FoxNeverDrawn(r: real, u: real)
    requires 0.0 <= r < 1.0 && 0.0 <= u < 1.0
    ensures WeightedDraw(r, u).rarity == WeightedRarity(r)
    ensures WeightedDraw(r, u).id != "fox"
  {
    OnlyEpicIsFox(WeightedDraw(r, u));
  }

  // ---------------------------------------------------------------- lines

  /** The (reel, row) cells of payline `li`: rows 0-2, then reels 3-5, then
      the falling (6) and rising (7) diagonals. */
  function LineCells(li: nat): (cells: seq<(nat, nat)>)
    requires li < 8
    ensures |cells| == 3
    ensures forall k :: 0 <= k < 3 ==> cells[k].0 < 3 && cells[k].1 < 3
  {
    if li < 3 then [(0, li), (1, li), (2, li)]
    else if li < 6 then [(li - 3, 0), (li - 3, 1), (li - 3, 2)]
    else if li == 6 then [(0, 0), (1, 1), (2, 2)]
    else [(0, 2), (1, 1), (2, 0)]
  }

  /** The symbols on payline `li`. */
  function LineSymbols<T>(g: seq<seq<T>>, li: nat): seq<T>
    requires IsGrid(g) && li < 8
  {
    var cells := LineCells(li);
    [g[cells[0].0][cells[0].1], g[cells[1].0][cells[1].1], g[cells[2].0][cells[2].1]]
  }

  /** A payline shows the three symbols of its cells, in order. */
  lemma LineSymbolsCells<T>(g: seq<seq<T>>, li: nat)
    requires IsGrid(g) && li < 8
    ensures |LineSymbols(g, li)| == 3
    ensures forall k :: 0 <= k < 3 ==> LineSymbols(g, li)[k] == g[LineCells(li)[k].0][LineCells(li)[k].1]
  {
  }

  /** Where the reels render a cell: `reelIndex * 3 + symbolIndex`. */
  function RenderPosition(c: nat, r: nat): nat {
    c * 3 + r
  }

  /** The positions the code records for a winning line:
      `lineIndex * 3 + i`. */
  function AsWrittenPositions(li: nat): seq<int> {
    [li * 3, li * 3 + 1, li * 3 + 2]
  }

  /** Recorded as written, the positions of a row win are the cells of a
      reel, and those of a reel or diagonal win are past the last rendered
      cell, so those wins highlight nothing. */
  lemma AsWrittenHighlightMisses()
    ensures AsWrittenPositions(0) == [RenderPosition(0, 0), RenderPosition(0, 1), RenderPosition(0, 2)]
    ensures RenderPosition(1, 0) !in AsWrittenPositions(0)
    ensures forall li, c, r :: 3 <= li < 8 && c < 3 && r < 3 ==>
      RenderPosition(c, r) !in AsWrittenPositions(li)
  {
  }

  /** The positions a winning line should record: the rendered positions of
      its own cells. */
  function LinePositions(li: nat): seq<int>
    requires li < 8
  {
    var cells := LineCells(li);
    [RenderPosition(cells[0].0, cells[0].1), RenderPosition(cells[1].0, cells[1].1),
     RenderPosition(cells[2].0, cells[2].1)]
  }

  /** A rendered cell's position is among a line's recorded positions
      exactly when the cell lies on the line. */
  lemma LinePositionsExact(li: nat, c: nat, r: nat)
    requires li < 8 && c < 3 && r < 3
    ensures RenderPosition(c, r) in LinePositions(li) <==> (c, r) in LineCells(li)
  {
  }

  /** Which positions a win records: the code's `lineIndex * 3 + i`, or the
      rendered positions of the line's own cells. */
  datatype Layout = AsWritten | Rendered

  function Positions(layout: Layout, li: nat): seq<int>
    requires li < 8
  {
    match layout
    case AsWritten => AsWrittenPositions(li)
    case Rendered => LinePositions(li)
  }

  datatype WinLine = WinLine(symbols: seq<SpriteSymbol>, positions: seq<int>, multiplier: nat, payout: int)

  /** All symbols of the line share the first one's id. */
  predicate AllMatch(symbols: seq<SpriteSymbol>)
    requires |symbols| > 0
  {
    forall k :: 0 <= k < |symbols| ==> symbols[k].id == symbols[0].id
  }

  /** `checkLineWin` with the stake `bet` it closes over: a line of at least
      three symbols that all share the first one's id pays that stake x the
      symbol's multiplier. */
  function CheckLineWin(symbols: seq<SpriteSymbol>, li: nat, bet: int, layout: Layout): Option<WinLine>
    requires li < 8
  {
    if |symbols| < 3 then None
    else if AllMatch(symbols) then
      Some(WinLine(symbols, Positions(layout, li), symbols[0].multiplier, bet * symbols[0].multiplier))
    else None
  }

  /** A line wins exactly when it has three or more symbols sharing the
      first one's id; the win records the line's positions and pays stake x
      multiplier. */
  lemma LineWinSpec(symbols: seq<SpriteSymbol>, li: nat, bet: int, layout: Layout)
    requires li < 8
    ensures var w := CheckLineWin(symbols, li, bet, layout);
      (w.Some? <==> |symbols| >= 3 && AllMatch(symbols)) &&
      (w.Some? ==> w.value.symbols == symbols && w.value.positions == Positions(layout, li) &&
                   w.value.multiplier == symbols[0].multiplier && w.value.payout == bet * symbols[0].multiplier)
  {
  }

  /** Payline `li` of the grid wins. */
  predicate LineWins(g: seq<seq<SpriteSymbol>>, li: nat)
    requires IsGrid(g) && li < 8
  {
    AllMatch(LineSymbols(g, li))
  }

  function OptionToSeq<T>(o: Option<T>): seq<T> {
    if o.Some? then [o.value] else []
  }

  /** Reference: the wins of paylines `0 .. n-1`, in payline order. */
  function WinsUpTo(g: seq<seq<SpriteSymbol>>, bet: int, n: nat, layout: Layout): (wins: seq<WinLine>)
    requires IsGrid(g) && n <= 8
    ensures |wins| <= n
  {
    if n == 0 then []
    else WinsUpTo(g, bet, n - 1, layout) + OptionToSeq(CheckLineWin(LineSymbols(g, n - 1), n - 1, bet, layout))
  }

  /** `checkWinningLines`: rows, then reels, then both diagonals; every
      matching line is kept. It is memoised with no dependencies, so it
      keeps calling the `checkLineWin` of the first render, whose stake is
      the initial 10: every win pays 10 x the multiplier, whatever stake
      the player has chosen since, and records `lineIndex * 3 + i`. */
  method CheckWinningLines(g: seq<seq<SpriteSymbol>>) returns (wins: seq<WinLine>)
    requires IsGrid(g)
    ensures wins == WinsUpTo(g, InitialBet, 8, AsWritten)
  {
    wins := [];
    var row := 0;
    while row < 3
      invariant 0 <= row <= 3
      invariant wins == WinsUpTo(g, InitialBet, row, AsWritten)
    {
      var lineSymbols := [g[0][row], g[1][row], g[2][row]];
      var win := CheckLineWin(lineSymbols, row, InitialBet, AsWritten);
      RowStep(g, InitialBet, row, AsWritten);
      if win.Some? {
        wins := wins + [win.value];
      }
      row := row + 1;
    }
    var col := 0;
    while col < 3
      invariant 0 <= col <= 3
      invariant wins == WinsUpTo(g, InitialBet, col + 3, AsWritten)
    {
      var lineSymbols := g[col];
      var win := CheckLineWin(lineSymbols, col + 3, InitialBet, AsWritten);
      ReelStep(g, InitialBet, col, AsWritten);
      if win.Some? {
        wins := wins + [win.value];
      }
      col := col + 1;
    }
    var diagonal1 := [g[0][0], g[1][1], g[2][2]];
    var diagonal2 := [g[0][2], g[1][1], g[2][0]];
    var diag1Win := CheckLineWin(diagonal1, 6, InitialBet, AsWritten);
    var diag2Win := CheckLineWin(diagonal2, 7, InitialBet, AsWritten);
    DiagonalSteps(g, InitialBet, AsWritten);
    if diag1Win.Some? {
      wins := wins + [diag1Win.value];
    }
    if diag2Win.Some? {
      wins := wins + [diag2Win.value];
    }
  }

  /** One more payline appends its win, if any, to the wins so far. */
  lemma WinsStep(g: seq<seq<SpriteSymbol>>, bet: int, li: nat, layout: Layout)
    requires IsGrid(g) && li < 8
    ensures WinsUpTo(g, bet, li + 1, layout) ==
      WinsUpTo(g, bet, li, layout) + OptionToSeq(CheckLineWin(LineSymbols(g, li), li, bet, layout))
  {
  }

  lemma RowStep(g: seq<seq<SpriteSymbol>>, bet: int, row: nat, layout: Layout)
    requires IsGrid(g) && row < 3
    ensures WinsUpTo(g, bet, row + 1, layout) ==
      WinsUpTo(g, bet, row, layout) + OptionToSeq(CheckLineWin([g[0][row], g[1][row], g[2][row]], row, bet, layout))
  {
    WinsStep(g, bet, row, layout);
  }

  lemma ReelStep(g: seq<seq<SpriteSymbol>>, bet: int, col: nat, layout: Layout)
    requires IsGrid(g) && col < 3
    ensures WinsUpTo(g, bet, col + 4, layout) ==
      WinsUpTo(g, bet, col + 3, layout) + OptionToSeq(CheckLineWin(g[col], col + 3, bet, layout))
  {
    WinsStep(g, bet, col + 3, layout);
    assert LineCells(col + 3) == [(col, 0), (col, 1), (col, 2)];
    assert g[col] == [g[col][0], g[col][1], g[col][2]];
  }

  lemma DiagonalSteps(g: seq<seq<SpriteSymbol>>, bet: int, layout: Layout)
    requires IsGrid(g)
    ensures WinsUpTo(g, bet, 7, layout) ==
      WinsUpTo(g, bet, 6, layout) + OptionToSeq(CheckLineWin([g[0][0], g[1][1], g[2][2]], 6, bet, layout))
    ensures WinsUpTo(g, bet, 8, layout) ==
      WinsUpTo(g, bet, 7, layout) + OptionToSeq(CheckLineWin([g[0][2], g[1][1], g[2][0]], 7, bet, layout))
  {
    WinsStep(g, bet, 6, layout);
    WinsStep(g, bet, 7, layout);
  }

  /** `winLines.some(win => win.positions.includes(position))`. */
  predicate IsHighlighted(wins: seq<WinLine>, position: int) {
    exists k :: 0 <= k < |wins| && position in wins[k].positions
  }

  lemma HighlightedAppend(a: seq<WinLine>, b: seq<WinLine>, position: int)
    ensures IsHighlighted(a + b, position) <==> IsHighlighted(a, position) || IsHighlighted(b, position)
  {
    if IsHighlighted(a + b, position) {
      var k :| 0 <= k < |a + b| && position in (a + b)[k].positions;
      if k < |a| {
        assert position in a[k].positions;
      } else {
        assert position in b[k - |a|].positions;
      }
    }
    if IsHighlighted(a, position) {
      var k :| 0 <= k < |a| && position in a[k].positions;
      assert (a + b)[k] == a[k];
    }
    if IsHighlighted(b, position) {
      var k :| 0 <= k < |b| && position in b[k].positions;
      assert (a + b)[|a| + k] == b[k];
    }
  }

  /** The highlight of a single optional win: the rendered position is
      among its recorded positions. */
  lemma HighlightSingle(w: Option<WinLine>, position: int)
    ensures IsHighlighted(OptionToSeq(w), position) <==> w.Some? && position in w.value.positions
  {
    if w.Some? {
      assert OptionToSeq(w)[0] == w.value;
    }
  }

  /** Cell `(c, r)` lies on one of the winning paylines among `0 .. n-1`. */
  predicate OnWinningLine(g: seq<seq<SpriteSymbol>>, n: nat, c: nat, r: nat)
    requires IsGrid(g) && n <= 8
  {
    n > 0 && (OnWinningLine(g, n - 1, c, r) || (LineWins(g, n - 1) && (c, r) in LineCells(n - 1)))
  }

  /** The one-line step of the corrected highlight: a payline's own win
      highlights exactly the cells of that line, when it wins. */
  lemma HighlightOneLine(g: seq<seq<SpriteSymbol>>, bet: int, li: nat, c: nat, r: nat)
    requires IsGrid(g) && li < 8 && c < 3 && r < 3
    ensures IsHighlighted(OptionToSeq(CheckLineWin(LineSymbols(g, li), li, bet, Rendered)), RenderPosition(c, r)) <==>
      LineWins(g, li) && (c, r) in LineCells(li)
  {
    LineWinSpec(LineSymbols(g, li), li, bet, Rendered);
    LinePositionsExact(li, c, r);
    HighlightSingle(CheckLineWin(LineSymbols(g, li), li, bet, Rendered), RenderPosition(c, r));
  }

  /** With the corrected positions, a rendered cell is highlighted exactly
      when it lies on one of the winning paylines. */
  lemma {:induction false} HighlightExact(g: seq<seq<SpriteSymbol>>, bet: int, n: nat, c: nat, r: nat)
    requires IsGrid(g) && n <= 8 && c < 3 && r < 3
    ensures IsHighlighted(WinsUpTo(g, bet, n, Rendered), RenderPosition(c, r)) <==> OnWinningLine(g, n, c, r)
  {
    if n > 0 {
      HighlightExact(g, bet, n - 1, c, r);
      HighlightOneLine(g, bet, n - 1, c, r);
      HighlightedAppend(WinsUpTo(g, bet, n - 1, Rendered),
        OptionToSeq(CheckLineWin(LineSymbols(g, n - 1), n - 1, bet, Rendered)), RenderPosition(c, r));
    }
  }

  /** The one-line step of the highlight as written: a payline's win lights
      the whole of reel `li` when it wins, which is a rendered reel only for
      the three rows. */
  lemma AsWrittenHighlightOneLine(g: seq<seq<SpriteSymbol>>, bet: int, li: nat, c: nat, r: nat)
    requires IsGrid(g) && li < 8 && c < 3 && r < 3
    ensures IsHighlighted(OptionToSeq(CheckLineWin(LineSymbols(g, li), li, bet, AsWritten)), RenderPosition(c, r)) <==>
      LineWins(g, li) && c == li
  {
    LineWinSpec(LineSymbols(g, li), li, bet, AsWritten);
    HighlightSingle(CheckLineWin(LineSymbols(g, li), li, bet, AsWritten), RenderPosition(c, r));
  }

  /** As written, a rendered cell of reel `c` is highlighted exactly when
      row `c` won: a winning row lights a reel instead of itself, and reel
      and diagonal wins light nothing. */
  lemma {:induction false} AsWrittenHighlight(g: seq<seq<SpriteSymbol>>, bet: int, n: nat, c: nat, r: nat)
    requires IsGrid(g) && n <= 8 && c < 3 && r < 3
    ensures IsHighlighted(WinsUpTo(g, bet, n, AsWritten), RenderPosition(c, r)) <==> c < n && LineWins(g, c)
  {
    if n > 0 {
      AsWrittenHighlight(g, bet, n - 1, c, r);
      AsWrittenHighlightOneLine(g, bet, n - 1, c, r);
      HighlightedAppend(WinsUpTo(g, bet, n - 1, AsWritten),
        OptionToSeq(CheckLineWin(LineSymbols(g, n - 1), n - 1, bet, AsWritten)), RenderPosition(c, r));
    }
  }

  // ---------------------------------------------------------------- payout

  /** `wins.reduce((sum, win) => sum + win.payout, 0)`, folded from the left. */
  function PayoutSum(wins: seq<WinLine>): int {
    if wins == [] then 0 else PayoutSum(wins[..|wins| - 1]) + wins[|wins| - 1].payout
  }

  method TotalWin(wins: seq<WinLine>) returns (total: int)
    ensures total == PayoutSum(wins)
  {
    total := 0;
    var i := 0;
    while i < |wins|
      invariant 0 <= i <= |wins|
      invariant total == PayoutSum(wins[..i])
    {
      assert wins[..i + 1][..i] == wins[..i];
      total := total + wins[i].payout;
      i := i + 1;
    }
    assert wins[..|wins|] == wins;
  }

  lemma PayoutSumAppend(a: seq<WinLine>, w: Option<WinLine>)
    ensures PayoutSum(a + OptionToSeq(w)) == PayoutSum(a) + (if w.Some? then w.value.payout else 0)
  {
    if w.Some? {
      assert (a + [w.value])[..|a|] == a;
    } else {
      assert a + [] == a;
    }
  }

  /** Every win of `ws` pays between nothing and `m`. */
  predicate PaysWithin(ws: seq<WinLine>, m: int) {
    forall k :: 0 <= k < |ws| ==> 0 <= ws[k].payout <= m
  }

  /** The total of wins each paying between 0 and `m` is between 0 and
      `m` per win. */
  lemma {:induction false} SumBounded(ws: seq<WinLine>, m: int)
    requires PaysWithin(ws, m)
    ensures 0 <= PayoutSum(ws) <= m * |ws|
  {
    if ws != [] {
      var init := ws[..|ws| - 1];
      assert forall k :: 0 <= k < |init| ==> init[k] == ws[k];
      SumBounded(init, m);
      MulSucc(m, |init|);
    }
  }

  /** The bound of one payline's win: nothing, or stake x a multiplier of at
      most fifty. */
  lemma LinePaysWithin(g: seq<seq<SpriteSymbol>>, bet: int, li: nat, layout: Layout)
    requires IsGrid(g) && li < 8 && bet >= 0
    requires forall c, r :: 0 <= c < 3 && 0 <= r < 3 ==> g[c][r].multiplier <= 50
    ensures PaysWithin(OptionToSeq(CheckLineWin(LineSymbols(g, li), li, bet, layout)), 50 * bet)
  {
    var line := LineSymbols(g, li);
    LineSymbolsCells(g, li);
    LineWinSpec(line, li, bet, layout);
    var w := CheckLineWin(line, li, bet, layout);
    if w.Some? {
      var s := line[0];
      assert s.multiplier <= 50;
      MulMonotone(bet, 0, s.multiplier);
      MulMonotone(bet, s.multiplier, 50);
      assert OptionToSeq(w) == [w.value];
    }
  }

  lemma PaysWithinAppend(a: seq<WinLine>, b: seq<WinLine>, m: int)
    requires PaysWithin(a, m) && PaysWithin(b, m)
    ensures PaysWithin(a + b, m)
  {
    forall k | 0 <= k < |a + b| ensures 0 <= (a + b)[k].payout <= m {
      if k >= |a| {
        assert (a + b)[k] == b[k - |a|];
      }
    }
  }

  /** When no symbol in the window pays more than fifty stakes (as no
      catalog symbol does), each winning payline pays between nothing and
      fifty stakes. */
  lemma {:induction false} PayoutsBounded(g: seq<seq<SpriteSymbol>>, bet: int, n: nat, layout: Layout)
    requires IsGrid(g) && n <= 8 && bet >= 0
    requires forall c, r :: 0 <= c < 3 && 0 <= r < 3 ==> g[c][r].multiplier <= 50
    ensures PaysWithin(WinsUpTo(g, bet, n, layout), 50 * bet)
  {
    if n > 0 {
      PayoutsBounded(g, bet, n - 1, layout);
      LinePaysWithin(g, bet, n - 1, layout);
      PaysWithinAppend(WinsUpTo(g, bet, n - 1, layout),
        OptionToSeq(CheckLineWin(LineSymbols(g, n - 1), n - 1, bet, layout)), 50 * bet);
    }
  }

  /** So the first `n` paylines of such a window pay between nothing and
      fifty stakes per win. */
  lemma WinsUpToBounded(g: seq<seq<SpriteSymbol>>, bet: int, n: nat, layout: Layout)
    requires IsGrid(g) && n <= 8 && bet >= 0
    requires forall c, r :: 0 <= c < 3 && 0 <= r < 3 ==> g[c][r].multiplier <= 50
    ensures 0 <= PayoutSum(WinsUpTo(g, bet, n, layout)) <= 50 * bet * |WinsUpTo(g, bet, n, layout)|
  {
    PayoutsBounded(g, bet, n, layout);
    SumBounded(WinsUpTo(g, bet, n, layout), 50 * bet);
  }

  /** And the eight paylines between nothing and 400 times the stake the
      evaluator pays with. */
  lemma TotalBounded(g: seq<seq<SpriteSymbol>>, bet: int, layout: Layout)
    requires IsGrid(g) && bet >= 0
    requires forall c, r :: 0 <= c < 3 && 0 <= r < 3 ==> g[c][r].multiplier <= 50
    ensures 0 <= PayoutSum(WinsUpTo(g, bet, 8, layout)) <= 400 * bet
  {
    WinsUpToBounded(g, bet, 8, layout);
    MulMonotone(50 * bet, |WinsUpTo(g, bet, 8, layout)|, 8);
  }

  lemma MultiplierBound(s: SpriteSymbol)
    requires s in Catalog
    ensures s.multiplier <= 50
  {
    var i :| 0 <= i < |Catalog| && Catalog[i] == s;
    CatalogShape();
    assert Catalog[0].multiplier == 50;
  }

  /** Every payline of a window showing one symbol everywhere wins and pays
      that symbol's multiplier times the stake. */
  lemma UniformLineWins(s: SpriteSymbol, bet: int, li: nat, layout: Layout)
    requires li < 8
    ensures CheckLineWin(LineSymbols(Uniform(s), li), li, bet, layout).Some?
    ensures CheckLineWin(LineSymbols(Uniform(s), li), li, bet, layout).value.payout == bet * s.multiplier
  {
    var line := LineSymbols(Uniform(s), li);
    LineSymbolsCells(Uniform(s), li);
    assert line[0] == s && line[1] == s && line[2] == s;
    assert line == [s, s, s];
    LineWinSpec([s, s, s], li, bet, layout);
  }

  /** When every payline wins, the first `n` lines give `n` wins. */
  lemma {:induction false} AllLinesWinCount(g: seq<seq<SpriteSymbol>>, bet: int, n: nat, layout: Layout)
    requires n <= 8 && IsGrid(g)
    requires forall li :: 0 <= li < 8 ==> CheckLineWin(LineSymbols(g, li), li, bet, layout).Some?
    ensures |WinsUpTo(g, bet, n, layout)| == n
  {
    if n > 0 {
      AllLinesWinCount(g, bet, n - 1, layout);
    }
  }

  /** When every payline wins and pays `m`, the first `n` lines pay `m * n`. */
  lemma {:induction false} AllLinesWinSum(g: seq<seq<SpriteSymbol>>, bet: int, m: int, n: nat, layout: Layout)
    requires n <= 8 && IsGrid(g)
    requires forall li :: 0 <= li < 8 ==> CheckLineWin(LineSymbols(g, li), li, bet, layout).Some?
    requires forall li :: 0 <= li < 8 ==> CheckLineWin(LineSymbols(g, li), li, bet, layout).value.payout == m
    ensures PayoutSum(WinsUpTo(g, bet, n, layout)) == m * n
  {
    if n > 0 {
      AllLinesWinSum(g, bet, m, n - 1, layout);
      PayoutSumAppend(WinsUpTo(g, bet, n - 1, layout), CheckLineWin(LineSymbols(g, n - 1), n - 1, bet, layout));
      MulSucc(m, n - 1);
    }
  }

  /** So a window showing one symbol everywhere pays on all eight lines, and
      a window full of tigers reaches the 400-stake bound of the stake the
      evaluator pays with. */
  lemma UniformWindowPaysAll(s: SpriteSymbol, bet: int, layout: Layout)
    ensures |WinsUpTo(Uniform(s), bet, 8, layout)| == 8
    ensures PayoutSum(WinsUpTo(Uniform(s), bet, 8, layout)) == bet * s.multiplier * 8
    ensures s == Catalog[0] ==> PayoutSum(WinsUpTo(Uniform(s), bet, 8, layout)) == 400 * bet
  {
    forall li | 0 <= li < 8
      ensures CheckLineWin(LineSymbols(Uniform(s), li), li, bet, layout).Some?
      ensures CheckLineWin(LineSymbols(Uniform(s), li), li, bet, layout).value.payout == bet * s.multiplier
    {
      UniformLineWins(s, bet, li, layout);
    }
    AllLinesWinCount(Uniform(s), bet, 8, layout);
    AllLinesWinSum(Uniform(s), bet, bet * s.multiplier, 8, layout);
    assert Catalog[0].multiplier == 50;
  }

  // ---------------------------------------------------------------- spin

  /** Calls into the shared game actions. */
  datatype Action =
    | SpendCoins(amount: int)
    | AddCoins(amount: int)
    | CompleteSpin(winAmount: int, xpGained: int)

  datatype SpinOutcome =
    | Ignored
    | Spun(actions: seq<Action>, grid: seq<seq<SpriteSymbol>>, wins: seq<WinLine>, lastWin: int)

  function FillGrid(draws: seq<seq<(real, real)>>): (g: seq<seq<SpriteSymbol>>)
    requires ValidDraws(draws)
    ensures IsGrid(g)
    ensures forall c, r :: 0 <= c < 3 && 0 <= r < 3 ==> g[c][r] == WeightedDraw(draws[c][r].0, draws[c][r].1)
  {
    seq(3, c requires 0 <= c < 3 =>
      seq(3, r requires 0 <= r < 3 => WeightedDraw(draws[c][r].0, draws[c][r].1)))
  }

  /** The stake is spent; when any line won, the total is added and the spin
      completed with a tenth of it, rounded down, as experience. */
  function Settle(bet: int, g: seq<seq<SpriteSymbol>>, wins: seq<WinLine>): (o: SpinOutcome)
    ensures o.Spun? && o.grid == g && o.wins == wins
  {
    if wins == [] then Spun([SpendCoins(bet)], g, wins, 0)
    else
      var totalWin := PayoutSum(wins);
      Spun([SpendCoins(bet), AddCoins(totalWin), CompleteSpin(totalWin, totalWin / 10)], g, wins, totalWin)
  }

  /** `handleSpin`: ignored while a spin runs or when balance or energy is
      short; otherwise the current stake is spent, the reels are drawn and
      all eight paylines evaluated by the memoised `checkWinningLines`,
      which pays the initial stake and records `lineIndex * 3 + i`. */
  function HandleSpin(isSpinning: bool, coins: int, energy: int, bet: int,
                      draws: seq<seq<(real, real)>>): (o: SpinOutcome)
    requires ValidDraws(draws)
    ensures o.Ignored? <==> isSpinning || coins < bet || energy < 1
    ensures o.Spun? ==> o.grid == FillGrid(draws) && o == Settle(bet, o.grid, WinsUpTo(o.grid, InitialBet, 8, AsWritten))
  {
    if isSpinning || coins < bet || energy < 1 then Ignored
    else
      var g := FillGrid(draws);
      Settle(bet, g, WinsUpTo(g, InitialBet, 8, AsWritten))
  }

  /** The spin as evidently intended: the lines pay the stake that was
      spent and record the rendered positions of their cells. */
  function HandleSpinIntended(isSpinning: bool, coins: int, energy: int, bet: int,
                              draws: seq<seq<(real, real)>>): (o: SpinOutcome)
    requires ValidDraws(draws)
    ensures o.Ignored? <==> isSpinning || coins < bet || energy < 1
    ensures o.Spun? ==> o.grid == FillGrid(draws) && o == Settle(bet, o.grid, WinsUpTo(o.grid, bet, 8, Rendered))
  {
    if isSpinning || coins < bet || energy < 1 then Ignored
    else
      var g := FillGrid(draws);
      Settle(bet, g, WinsUpTo(g, bet, 8, Rendered))
  }

  /** The net balance change the actions ask for: spent stake out, added
      win in. */
  function NetCoins(actions: seq<Action>): int
    decreases |actions|
  {
    if actions == [] then 0
    else
      (match actions[0]
       case SpendCoins(a) => -a
       case AddCoins(a) => a
       case CompleteSpin(_, _) => 0) + NetCoins(actions[1..])
  }

  /** The experience the actions grant. */
  function XpGained(actions: seq<Action>): int
    decreases |actions|
  {
    if actions == [] then 0
    else (if actions[0].CompleteSpin? then actions[0].xpGained else 0) + XpGained(actions[1..])
  }

  /** A settled spin moves the balance by exactly `total win - stake`,
      records the total as the last win, and grants a tenth of it, rounded
      down, as experience; a spin completes exactly when some line won. */
  lemma SettleEffects(bet: int, g: seq<seq<SpriteSymbol>>, wins: seq<WinLine>)
    ensures var o := Settle(bet, g, wins);
      NetCoins(o.actions) == PayoutSum(wins) - bet &&
      o.lastWin == PayoutSum(wins) &&
      XpGained(o.actions) == (if wins == [] then 0 else PayoutSum(wins) / 10) &&
      o.actions[0] == SpendCoins(bet) &&
      ((exists k :: 0 <= k < |o.actions| && o.actions[k].CompleteSpin?) <==> wins != [])
  {
    var o := Settle(bet, g, wins);
    if wins == [] {
      assert NetCoins(o.actions) == -bet + NetCoins([]);
      assert XpGained(o.actions) == 0 + XpGained([]);
    } else {
      var t := o.lastWin;
      assert o.actions[1..] == [AddCoins(t), CompleteSpin(t, t / 10)];
      assert o.actions[1..][1..] == [CompleteSpin(t, t / 10)];
      assert NetCoins([CompleteSpin(t, t / 10)]) == 0 + NetCoins([]);
      assert XpGained([CompleteSpin(t, t / 10)]) == t / 10 + XpGained([]);
      assert o.actions[2].CompleteSpin?;
    }
  }

  /** A handled spin moves the balance by exactly `total win - stake`. */
  lemma SpinNet(isSpinning: bool, coins: int, energy: int, bet: int, draws: seq<seq<(real, real)>>)
    requires ValidDraws(draws)
    ensures var o := HandleSpin(isSpinning, coins, energy, bet, draws);
      o.Spun? ==> NetCoins(o.actions) == PayoutSum(o.wins) - bet && o.lastWin == PayoutSum(o.wins)
  {
    var o := HandleSpin(isSpinning, coins, energy, bet, draws);
    if o.Spun? {
      SettleEffects(bet, o.grid, o.wins);
    }
  }

  /** Every drawn window shows catalog symbols only, none paying more than
      fifty. */
  lemma DrawnMultipliers(draws: seq<seq<(real, real)>>)
    requires ValidDraws(draws)
    ensures forall c, r :: 0 <= c < 3 && 0 <= r < 3 ==> FillGrid(draws)[c][r].multiplier <= 50
  {
    forall c, r | 0 <= c < 3 && 0 <= r < 3 ensures FillGrid(draws)[c][r].multiplier <= 50 {
      MultiplierBound(FillGrid(draws)[c][r]);
    }
  }

  /** As written, no handled spin pays more than 4000, eight lines of tigers
      at the frozen stake of 10, whatever stake was spent. */
  lemma SpinPaysAtMost4000(isSpinning: bool, coins: int, energy: int, bet: int, draws: seq<seq<(real, real)>>)
    requires ValidDraws(draws)
    ensures var o := HandleSpin(isSpinning, coins, energy, bet, draws);
      o.Spun? ==> 0 <= o.lastWin <= 400 * InitialBet
  {
    var o := HandleSpin(isSpinning, coins, energy, bet, draws);
    if o.Spun? {
      DrawnMultipliers(draws);
      TotalBounded(o.grid, InitialBet, AsWritten);
    }
  }

  /** As intended, no handled spin pays more than 400 stakes. */
  lemma SpinPaysAtMost400(isSpinning: bool, coins: int, energy: int, bet: int, draws: seq<seq<(real, real)>>)
    requires ValidDraws(draws) && bet >= 0
    ensures var o := HandleSpinIntended(isSpinning, coins, energy, bet, draws);
      o.Spun? ==> 0 <= o.lastWin <= 400 * bet
  {
    var o := HandleSpinIntended(isSpinning, coins, energy, bet, draws);
    if o.Spun? {
      DrawnMultipliers(draws);
      TotalBounded(o.grid, bet, Rendered);
    }
  }

  /** Rolls that put a tiger in every cell. */
  const TigerDraws: seq<seq<(real, real)>> := Uniform((0.0, 0.0))

  /** The lowest rolls draw the tiger. */
  lemma LowestRollsDrawTiger()
    ensures WeightedDraw(0.0, 0.0) == Catalog[0]
  {
    LegendaryPool();
  }

  lemma TigerWindow()
    ensures ValidDraws(TigerDraws)
    ensures FillGrid(TigerDraws) == Uniform(Catalog[0])
  {
    LowestRollsDrawTiger();
    var g := FillGrid(TigerDraws);
    var u := Uniform(Catalog[0]);
    forall c | 0 <= c < 3 ensures g[c] == u[c] {
      assert g[c][0] == u[c][0] && g[c][1] == u[c][1] && g[c][2] == u[c][2];
    }
  }

  /** A window of tigers pays 4000 as written whatever the stake, so a
      stake of 1 wins 4000 stakes and a stake of 100 only 40; as intended
      it pays 400 stakes. */
  lemma FrozenStakeTigers(coins: int, energy: int, bet: int)
    requires 1 <= bet <= coins && energy >= 1
    ensures ValidDraws(TigerDraws)
    ensures HandleSpin(false, coins, energy, bet, TigerDraws).lastWin == 4000
    ensures HandleSpinIntended(false, coins, energy, bet, TigerDraws).lastWin == 400 * bet
  {
    TigerWindow();
    UniformWindowPaysAll(Catalog[0], InitialBet, AsWritten);
    UniformWindowPaysAll(Catalog[0], bet, Rendered);
  }

  datatype Effect = CoinBurst | WinEffect | JackpotEffect

  function EffectRank(e: Effect): nat {
    match e
    case CoinBurst => 0
    case WinEffect => 1
    case JackpotEffect => 2
  }

  /** The particle effect of a win: jackpot above fifteen current stakes,
      win above five, a coin burst otherwise. */
  function EffectOf(totalWin: int, bet: int): Effect {
    if totalWin > bet * 15 then JackpotEffect
    else if totalWin > bet * 5 then WinEffect
    else CoinBurst
  }

  /** A larger total never earns a smaller effect; a single frog line (15
      stakes) is still only a win effect, a single tiger line a jackpot. */
  lemma EffectMonotone(totalWin: int, larger: int, bet: int)
    requires totalWin <= larger
    ensures EffectRank(EffectOf(totalWin, bet)) <= EffectRank(EffectOf(larger, bet))
    ensures bet >= 1 ==> EffectOf(bet * 15, bet) == WinEffect && EffectOf(bet * 50, bet) == JackpotEffect
  {
  }

  /** The auto-spin effect schedules a spin only when auto-spin is on, no
      spin runs, the balance covers the stake and energy is left. */
  predicate AutoSpinDue(autoSpin: bool, isSpinning: bool, coins: int, energy: int, bet: int) {
    autoSpin && !isSpinning && coins >= bet && energy > 0
  }

  /** A scheduled auto-spin is never ignored. */
  lemma AutoSpinNeverIgnored(autoSpin: bool, isSpinning: bool, coins: int, energy: int, bet: int,
                             draws: seq<seq<(real, real)>>)
    requires ValidDraws(draws)
    requires AutoSpinDue(autoSpin, isSpinning, coins, energy, bet)
    ensures HandleSpin(isSpinning, coins, energy, bet, draws).Spun?
  {
  }

  /** `adjustBet`: the new stake is clamped to the balance and to at least 1. */
  function AdjustBet(bet: int, change: int, coins: int): (r: int)
    ensures r >= 1
    ensures coins >= 1 ==> r <= coins
    ensures 1 <= bet + change <= coins ==> r == bet + change
    ensures coins < 1 ==> r == 1
  {
    MaxInt(1, MinInt(coins, bet + change))
  }

  /** With any balance left, an adjusted stake is always affordable, so the
      spin is not refused for the balance; with none, the stake is 1 and
      every spin is. */
  lemma AdjustedBetAffordable(isSpinning: bool, coins: int, energy: int, bet: int, change: int,
                              draws: seq<seq<(real, real)>>)
    requires ValidDraws(draws)
    ensures var b := AdjustBet(bet, change, coins);
      (coins >= 1 && energy >= 1 && !isSpinning ==> HandleSpin(isSpinning, coins, energy, b, draws).Spun?) &&
      (coins < 1 ==> HandleSpin(isSpinning, coins, energy, b, draws).Ignored?)
  {
  }
}

=== FILE: game_hub.dfy ===
/** The game hub (`EnhancedGameHub`): the game list and its level locks, the
    reward handlers it hands to the missions, collectibles, VIP and daily
    reward panels, the milestone notices and the daily-spin counter shown.

    The reward handlers name their first parameter `coins` (and the VIP and
    daily ones their second `energy`), which hides the balance props of the
    same names: the hub credits `reward + reward` as the new balance. They
    are modelled as written (`XpReward`, `CoinsEnergyReward`), next to the
    evidently intended versions (`XpRewardIntended`,
    `CoinsEnergyRewardIntended`). */
module GameHub {
  import opened Numeric
  import opened Callbacks
  import opened Economy

  datatype Game = Game(id: string, minLevel: int, isNew: bool, featured: bool)

  const Games: seq<Game> := [
    Game("fortune-tiger", 1, false, true),
    Game("wheel-fortune", 1, false, false),
    Game("wild-slots", 1, false, false),
    Game("dragon-treasure", 5, true, true),
    Game("phoenix-fire", 10, true, false),
    Game("golden-palace", 15, false, false)
  ]

  /** `canPlayGame`. */
  predicate CanPlayGame(level: int, minLevel: int) {
    level >= minLevel
  }

  /** The play button is disabled for a locked game or without energy. */
  predicate PlayDisabled(level: int, energy: int, game: Game) {
    !CanPlayGame(level, game.minLevel) || energy < 1
  }

  /** Minimum levels never decrease down the list, so the games playable at
      any level are a prefix of it; three games are open from the start and
      all six from level 15. */
  lemma PlayableIsPrefix(level: int)
    ensures forall i, j :: 0 <= i < j < |Games| ==> Games[i].minLevel <= Games[j].minLevel
    ensures forall i, j :: 0 <= i < j < |Games| && CanPlayGame(level, Games[j].minLevel) ==>
      CanPlayGame(level, Games[i].minLevel)
    ensures level >= 1 ==> forall i :: 0 <= i < 3 ==> CanPlayGame(level, Games[i].minLevel)
    ensures level < 5 ==> forall i :: 3 <= i < |Games| ==> !CanPlayGame(level, Games[i].minLevel)
    ensures level >= 15 ==> forall g :: g in Games ==> CanPlayGame(level, g.minLevel)
  {
  }

  /** With energy left, the button is enabled exactly for playable games. */
  lemma PlayEnabledIffUnlocked(level: int, energy: int, game: Game)
    ensures energy >= 1 ==> (!PlayDisabled(level, energy, game) <==> level >= game.minLevel)
    ensures energy < 1 ==> PlayDisabled(level, energy, game)
  {
  }

  // ---------------------------------------------------------------- rewards

  /** The balances the reward handlers read from their props. */
  datatype HubProps = HubProps(coins: int, energy: int, experience: int, maxExperience: int, maxEnergy: int)

  /** The props the page hands the hub. */
  function PropsOf(s: GameState): HubProps {
    HubProps(s.coins, s.energy, s.experience, MaxExperience, MaxEnergy)
  }

  /** `handleMissionReward` and `handleCollectionReward` (identical), as
      written: the new balance is the reward doubled, experience becomes
      `experience + xp`, and the level goes up when that reaches the
      maximum. */
  function XpReward(h: HubProps, coins: int, xp: int): (calls: seq<Callback>)
    ensures |calls| >= 2 && calls[0] == CoinsChange(2 * coins)
    ensures calls[1] == ExperienceChange(h.experience + xp)
    ensures (LevelUp in calls) <==> h.experience + xp >= h.maxExperience
  {
    [CoinsChange(coins + coins), ExperienceChange(h.experience + xp)]
      + (if h.experience + xp >= h.maxExperience then [LevelUp] else [])
  }

  /** The same handlers crediting the reward on top of the balance. */
  function XpRewardIntended(h: HubProps, reward: int, xp: int): (calls: seq<Callback>)
    ensures |calls| >= 2 && calls[0] == CoinsChange(h.coins + reward)
    ensures calls[1] == ExperienceChange(h.experience + xp)
    ensures (LevelUp in calls) <==> h.experience + xp >= h.maxExperience
  {
    [CoinsChange(h.coins + reward), ExperienceChange(h.experience + xp)]
      + (if h.experience + xp >= h.maxExperience then [LevelUp] else [])
  }

  /** `handleVIPBonus` and the daily-reward callback (identical, the day is
      unused), as written: the new balance is the reward doubled and the new
      energy the energy reward doubled, capped. */
  function CoinsEnergyReward(h: HubProps, coins: int, energy: int): (calls: seq<Callback>)
    ensures calls == [CoinsChange(2 * coins), EnergyChange(MinInt(2 * energy, h.maxEnergy))]
  {
    [CoinsChange(coins + coins), EnergyChange(MinInt(energy + energy, h.maxEnergy))]
  }

  /** The same handlers adding to the balance and the energy. */
  function CoinsEnergyRewardIntended(h: HubProps, coins: int, energy: int): (calls: seq<Callback>)
    ensures calls == [CoinsChange(h.coins + coins), EnergyChange(MinInt(h.energy + energy, h.maxEnergy))]
  {
    [CoinsChange(h.coins + coins), EnergyChange(MinInt(h.energy + energy, h.maxEnergy))]
  }

  /** The handlers as written agree with the intended ones only when the
      balance happens to equal the reward (and, for energy, when doubling
      the energy reward lands where adding it to the energy would). */
  lemma RewardsAgreeOnlyWhen(h: HubProps, coins: int, energy: int, xp: int)
    ensures XpReward(h, coins, xp) == XpRewardIntended(h, coins, xp) <==> h.coins == coins
    ensures CoinsEnergyReward(h, coins, energy) == CoinsEnergyRewardIntended(h, coins, energy) <==>
      h.coins == coins && MinInt(2 * energy, h.maxEnergy) == MinInt(h.energy + energy, h.maxEnergy)
  {
    if XpReward(h, coins, xp) == XpRewardIntended(h, coins, xp) {
      assert XpReward(h, coins, xp)[0] == XpRewardIntended(h, coins, xp)[0];
    }
    if CoinsEnergyReward(h, coins, energy) == CoinsEnergyRewardIntended(h, coins, energy) {
      assert CoinsEnergyReward(h, coins, energy)[0] == CoinsEnergyRewardIntended(h, coins, energy)[0];
      assert CoinsEnergyReward(h, coins, energy)[1] == CoinsEnergyRewardIntended(h, coins, energy)[1];
    }
  }

  /** Handing an experience reward's calls to the page, step by step. */
  lemma XpRewardSteps(s: GameState, newCoins: int, xp: int, up: bool)
    ensures var calls := [CoinsChange(newCoins), ExperienceChange(s.experience + xp)] + (if up then [LevelUp] else []);
      var t := DispatchAll(s, s, calls);
      var credited := HandleCoinsChange(s, s.coins, newCoins).(experience := s.experience + xp);
      t == (if up then OnLevelUp(credited) else credited)
  {
    var calls := [CoinsChange(newCoins), ExperienceChange(s.experience + xp)] + (if up then [LevelUp] else []);
    var s1 := Dispatch(s, s, calls[0]);
    var s2 := Dispatch(s, s1, calls[1]);
    assert DispatchAll(s, s, calls) == DispatchAll(s, s1, calls[1..]);
    assert DispatchAll(s, s1, calls[1..]) == DispatchAll(s, s2, calls[2..]);
    if up {
      assert calls[2..] == [LevelUp];
      assert DispatchAll(s, s2, calls[2..]) == DispatchAll(s, OnLevelUp(s2), []);
    } else {
      assert calls[2..] == [];
    }
  }

  /** As written, a mission or collection reward leaves the balance at twice
      the reward (plus the level-up bonus), whatever it was before; the ten
      experience of the balance change is overwritten; one level at most. */
  lemma XpRewardDoubleCredits(s: GameState, reward: int, xp: int)
    ensures var t := Batch(s, XpReward(PropsOf(s), reward, xp));
      var up := s.experience + xp >= MaxExperience;
      t.coins == 2 * reward + (if up then LevelUpBonus else 0) &&
      t.totalCoinsEarned == s.totalCoinsEarned + 2 * reward - s.coins &&
      t.experience == (if up then 0 else s.experience + xp) &&
      t.level == s.level + (if up then 1 else 0)
  {
    var up := s.experience + xp >= MaxExperience;
    assert XpReward(PropsOf(s), reward, xp) ==
      [CoinsChange(2 * reward), ExperienceChange(s.experience + xp)] + (if up then [LevelUp] else []);
    XpRewardSteps(s, 2 * reward, xp, up);
  }

  /** A balance of 1000 and a mission reward of 100 end at 200. */
  lemma MissionRewardLosesBalance()
    ensures Batch(Initial, XpReward(PropsOf(Initial), 100, 50)).coins == 200
    ensures Initial.coins == 1000
  {
    XpRewardDoubleCredits(Initial, 100, 50);
  }

  /** Intended, the reward is added to the balance and to the total earned. */
  lemma XpRewardIntendedCredits(s: GameState, reward: int, xp: int)
    ensures var t := Batch(s, XpRewardIntended(PropsOf(s), reward, xp));
      var up := s.experience + xp >= MaxExperience;
      t.coins == s.coins + reward + (if up then LevelUpBonus else 0) &&
      t.totalCoinsEarned == s.totalCoinsEarned + reward &&
      t.experience == (if up then 0 else s.experience + xp) &&
      t.level == s.level + (if up then 1 else 0)
  {
    var up := s.experience + xp >= MaxExperience;
    assert XpRewardIntended(PropsOf(s), reward, xp) ==
      [CoinsChange(s.coins + reward), ExperienceChange(s.experience + xp)] + (if up then [LevelUp] else []);
    XpRewardSteps(s, s.coins + reward, xp, up);
  }

  /** Handing a coins-and-energy reward's calls to the page. */
  lemma CoinsEnergySteps(s: GameState, newCoins: int, newEnergy: int)
    ensures DispatchAll(s, s, [CoinsChange(newCoins), EnergyChange(newEnergy)]) ==
      HandleEnergyChange(HandleCoinsChange(s, s.coins, newCoins), newEnergy)
  {
    var calls := [CoinsChange(newCoins), EnergyChange(newEnergy)];
    var s1 := Dispatch(s, s, calls[0]);
    assert DispatchAll(s, s, calls) == DispatchAll(s, s1, calls[1..]);
    assert calls[1..] == [EnergyChange(newEnergy)];
    assert DispatchAll(s, s1, calls[1..]) == DispatchAll(s, Dispatch(s, s1, calls[1]), []);
  }

  /** As written, a VIP or daily reward sets the balance to twice the coin
      reward (plus the bonus when the balance handler's ten experience
      levels up) and the energy to twice the energy reward (capped),
      whatever they were; going through the energy handler, it counts a
      spin, and the day and the streak stay as they were. */
  lemma CoinsEnergyRewardDoubleCredits(s: GameState, coins: int, energy: int)
    ensures var t := Batch(s, CoinsEnergyReward(PropsOf(s), coins, energy));
      var up := s.experience + CoinsChangeXp >= MaxExperience;
      t.coins == 2 * coins + (if up then LevelUpBonus else 0) &&
      t.level == s.level + (if up then 1 else 0) &&
      t.energy == MinInt(2 * energy, MaxEnergy) &&
      t.totalSpins == s.totalSpins + 1 && t.dailySpins == s.dailySpins + 1 &&
      t.dailyStreak == s.dailyStreak && t.currentDay == s.currentDay
  {
    CoinsEnergySteps(s, 2 * coins, MinInt(2 * energy, MaxEnergy));
  }

  /** Intended, both rewards are added, the energy capped, and a level-up
      from the ten experience keeps its bonus. */
  lemma CoinsEnergyRewardIntendedCredits(s: GameState, coins: int, energy: int)
    ensures var t := Batch(s, CoinsEnergyRewardIntended(PropsOf(s), coins, energy));
      var up := s.experience + CoinsChangeXp >= MaxExperience;
      t.coins == s.coins + coins + (if up then LevelUpBonus else 0) &&
      t.level == s.level + (if up then 1 else 0) &&
      t.energy == MinInt(s.energy + energy, MaxEnergy) &&
      t.totalCoinsEarned == s.totalCoinsEarned + coins
  {
    CoinsEnergySteps(s, s.coins + coins, MinInt(s.energy + energy, MaxEnergy));
  }

  /** Either way the energy handed back never passes the cap, and is not
      negative for a non-negative reward and energy. */
  lemma RewardEnergyCapped(h: HubProps, coins: int, energy: int)
    requires h.maxEnergy >= 0
    ensures CoinsEnergyReward(h, coins, energy)[1].newEnergy <= h.maxEnergy
    ensures energy >= 0 ==> CoinsEnergyReward(h, coins, energy)[1].newEnergy >= 0
    ensures CoinsEnergyRewardIntended(h, coins, energy)[1].newEnergy <= h.maxEnergy
    ensures h.energy >= 0 && energy >= 0 ==> CoinsEnergyRewardIntended(h, coins, energy)[1].newEnergy >= 0
  {
  }

  // ---------------------------------------------------------------- notices

  datatype Notice = LevelFive | LevelTen | LevelFifteen | CoinMagnate | SlotMaster

  /** The milestone notices, in the order they are pushed. */
  function Notices(level: int, totalCoinsEarned: int, totalSpins: int): seq<Notice> {
    (if level == 5 then [LevelFive] else [])
    + (if level == 10 then [LevelTen] else [])
    + (if level == 15 then [LevelFifteen] else [])
    + (if 100000 <= totalCoinsEarned < 100500 then [CoinMagnate] else [])
    + (if 100 <= totalSpins < 105 then [SlotMaster] else [])
  }

  /** Each notice shows exactly in its window: at levels 5, 10 and 15 only,
      while the total earned is in `[100000, 100500)` and while the spin count
      is in `[100, 105)`; at most three notices show at once. */
  lemma NoticeWindows(level: int, totalCoinsEarned: int, totalSpins: int)
    ensures var n := Notices(level, totalCoinsEarned, totalSpins);
      (LevelFive in n <==> level == 5) &&
      (LevelTen in n <==> level == 10) &&
      (LevelFifteen in n <==> level == 15) &&
      (CoinMagnate in n <==> 100000 <= totalCoinsEarned < 100500) &&
      (SlotMaster in n <==> 100 <= totalSpins < 105) &&
      |n| <= 3
  {
  }

  /** The daily spins shown: the spin total modulo 50, as JavaScript's `%`. */
  function DailySpinsShown(totalSpins: int): int {
    JsRem(totalSpins, 50)
  }

  /** For a non-negative total the counter shows a value in `[0, 50)` that
      differs from the total by whole rounds of 50, and comes back to the
      same value every 50 spins. */
  lemma DailySpinsWrap(totalSpins: int)
    requires totalSpins >= 0
    ensures 0 <= DailySpinsShown(totalSpins) < 50
    ensures (totalSpins - DailySpinsShown(totalSpins)) % 50 == 0
    ensures DailySpinsShown(totalSpins + 50) == DailySpinsShown(totalSpins)
  {
    var d := DailySpinsShown(totalSpins);
    ModUnique(totalSpins - d, 50, totalSpins / 50, 0);
    ModShift(totalSpins, 50);
  }
}

=== FILE: grid.dfy ===
/** The 3x3 reel window shared by every slot variant, indexed
    `grid[column][row]` (a column is one reel, row 0 is the top). */
module Grid {

  predicate IsGrid<T>(g: seq<seq<T>>) {
    |g| == 3 && forall c :: 0 <= c < 3 ==> |g[c]| == 3
  }

  /** The three cells of row `r`, left to right. */
  function Row<T>(g: seq<seq<T>>, r: nat): (line: seq<T>)
    requires IsGrid(g) && r < 3
    ensures |line| == 3
    ensures forall c :: 0 <= c < 3 ==> line[c] == g[c][r]
  {
    [g[0][r], g[1][r], g[2][r]]
  }

  /** A grid every cell of which is `x`. */
  function Uniform<T>(x: T): (g: seq<seq<T>>)
    ensures IsGrid(g)
    ensures forall c, r :: 0 <= c < 3 && 0 <= r < 3 ==> g[c][r] == x
  {
    [[x, x, x], [x, x, x], [x, x, x]]
  }

  /** The random inputs consumed while filling a grid: one pair per cell
      (the rarity roll and the pick within the rarity). */
  predicate ValidDraws(d: seq<seq<(real, real)>>) {
    IsGrid(d) &&
    forall c, r :: 0 <= c < 3 && 0 <= r < 3 ==>
      0.0 <= d[c][r].0 < 1.0 && 0.0 <= d[c][r].1 < 1.0
  }
}

=== FILE: numeric.dfy ===
/** Integer and real helpers that mirror JavaScript's `Math.min`, `Math.max`,
    `Math.floor(Math.random() * n)` and the truncating `%` operator. */
module Numeric {

  function MinInt(a: int, b: int): (m: int)
    ensures m <= a && m <= b
    ensures m == a || m == b
  {
    if a <= b then a else b
  }

  function MaxInt(a: int, b: int): (m: int)
    ensures m >= a && m >= b
    ensures m == a || m == b
  {
    if a >= b then a else b
  }

  function MinReal(a: real, b: real): (m: real)
    ensures m <= a && m <= b
    ensures m == a || m == b
  {
    if a <= b then a else b
  }

  /** `Math.floor(u * n)` for a `Math.random()` value `u`: an index into a
      non-empty list of length `n`. */
  function PickIndex(u: real, n: nat): (i: nat)
    requires 0.0 <= u < 1.0
    requires n > 0
    ensures i < n
  {
    assert u * (n as real) < n as real by {
      assert (1.0 - u) * (n as real) > 0.0;
    }
    (u * (n as real)).Floor
  }

  /** JavaScript's `a % b` for a positive divisor: the remainder takes the
      sign of the dividend (Dafny's own `%` is Euclidean and never negative). */
  function JsRem(a: int, b: int): (r: int)
    requires b > 0
    ensures a >= 0 ==> 0 <= r < b
    ensures a < 0 ==> -b < r <= 0
  {
    if a >= 0 then a % b else -((-a) % b)
  }

  /** Euclidean remainders are unique. */
  lemma ModUnique(x: int, step: int, q: int, r: int)
    requires step > 0 && 0 <= r < step && x == q * step + r
    ensures x % step == r
  {
    var q', r' := x / step, x % step;
    assert (q - q') * step == r' - r;
    if q - q' >= 1 {
      assert false;
    } else if q - q' <= -1 {
      assert false;
    }
  }

  /** Moving by one step keeps the remainder. */
  lemma ModShift(x: int, step: int)
    requires step > 0
    ensures (x + step) % step == x % step
    ensures (x - step) % step == x % step
  {
    var q, r := x / step, x % step;
    ModUnique(x + step, step, q + 1, r);
    ModUnique(x - step, step, q - 1, r);
  }

  /** Multiplying by a non-negative factor keeps the order. */
  lemma MulMonotone(a: int, b: int, c: int)
    requires a >= 0 && b <= c
    ensures a * b <= a * c
  {
    assert a * c - a * b == a * (c - b);
  }

  lemma MulSucc(a: int, b: int)
    ensures a * b + a == a * (b + 1)
  {
  }
}

=== FILE: premium_slot.dfy ===
/** The premium zodiac slot: a level- and skin-dependent symbol draw, a
    first-match payout over the three rows with streak and level bonuses, the
    spin gate and settlement, the celebration tier and the bet buttons.
    `Math.random` values are parameters; the cosmetic reels shown while
    spinning are not modelled. */
module PremiumSlot {
  import opened Numeric
  import opened Grid
  import opened Sprites
  import Themes
  import opened Zodiac
  import opened Callbacks
  import Bets

  const Symbols: seq<ZodiacSymbol> := [
    ZodiacSymbol("🐯", "Tigre Dourado", 50, Legendary),
    ZodiacSymbol("🦊", "Raposa da Sorte", 20, Rare),
    ZodiacSymbol("🐸", "Sapo da Prosperidade", 15, Rare),
    ZodiacSymbol("🧧", "Envelope Vermelho", 12, Rare),
    ZodiacSymbol("🍊", "Laranja da Fortuna", 8, Common),
    ZodiacSymbol("📜", "Pergaminho Místico", 25, Rare)
  ]

  /** The component's `multiplier` state: it starts at 1 and nothing in the
      component ever sets it. */
  const BaseMultiplier: real := 1.0

  const InitialBet: int := 100
  const MinBet: int := 50
  const MaxBet: int := 1000
  const BetStep: int := 50

  // ---------------------------------------------------------------- draw

  /** Extra legendary probability: one point per level, at most five. */
  function LegendaryBonus(level: int): (b: real)
    ensures b <= 0.05
    ensures level <= 5 ==> b == level as real * 0.01
    ensures level >= 5 ==> b == 0.05
  {
    MinReal(level as real * 0.01, 0.05)
  }

  /** The rarity band a roll `r` falls into: legendary below
      `0.10 + bonus`, rare for the next 0.35, common for the rest. */
  function DrawRarity(level: int, r: real): (rarity: Rarity)
    ensures rarity != Epic
    ensures rarity == Legendary ==> r < 0.15
    ensures r >= 0.50 ==> rarity == Common
    ensures level >= 0 && r < 0.10 ==> rarity == Legendary
    ensures level >= 0 && 0.15 <= r < 0.45 ==> rarity == Rare
    ensures level <= 5 ==>
      (rarity == Legendary <==> r < 0.10 + level as real * 0.01) &&
      (rarity == Common <==> r >= 0.45 + level as real * 0.01)
    ensures level >= 5 ==>
      (rarity == Legendary <==> r < 0.15) && (rarity == Common <==> r >= 0.50)
  {
    var legendary := 0.10 + LegendaryBonus(level);
    var rare := 0.35;
    if r < legendary then Legendary
    else if r < legendary + rare then Rare
    else Common
  }

  /** Levelling up only moves rolls from common towards legendary: a roll
      that is legendary at some level stays legendary at every higher level,
      and one that is common at a higher level was common before. */
  lemma LegendaryBandGrowsWithLevel(level: int, higher: int, r: real)
    requires level <= higher
    ensures DrawRarity(level, r) == Legendary ==> DrawRarity(higher, r) == Legendary
    ensures DrawRarity(higher, r) == Common ==> DrawRarity(level, r) == Common
  {
    assert LegendaryBonus(level) <= LegendaryBonus(higher);
  }

  /** The catalog symbols whose emoji is in `symbolSet`, in catalog order. */
  function InSymbolSet(symbols: seq<ZodiacSymbol>, symbolSet: seq<string>): (r: seq<ZodiacSymbol>)
    ensures forall s :: s in r <==> s in symbols && s.emoji in symbolSet
  {
    if symbols == [] then []
    else
      assert symbols == [symbols[0]] + symbols[1..];
      (if symbols[0].emoji in symbolSet then [symbols[0]] else []) + InSymbolSet(symbols[1..], symbolSet)
  }

  /** The symbols the active skin admits. */
  function ThemeSymbols(theme: Themes.ThemeId): seq<ZodiacSymbol> {
    InSymbolSet(Symbols, Themes.ConfigOrDefault(theme).symbolSet)
  }

  /** `getRandomSymbol`: roll the rarity with `r`, then pick with `u` among
      the skin's symbols of that rarity; when there are none, pick with `u`
      among all symbols instead. */
  function Draw(level: int, theme: Themes.ThemeId, r: real, u: real): (s: ZodiacSymbol)
    requires 0.0 <= r < 1.0 && 0.0 <= u < 1.0
    ensures s in Symbols
    ensures |Zodiac.OfRarity(ThemeSymbols(theme), DrawRarity(level, r))| > 0 ==>
      s.rarity == DrawRarity(level, r) && s.emoji in Themes.ConfigOrDefault(theme).symbolSet
    ensures |Zodiac.OfRarity(ThemeSymbols(theme), DrawRarity(level, r))| == 0 ==>
      s == Symbols[PickIndex(u, |Symbols|)]
  {
    var pool := Zodiac.OfRarity(ThemeSymbols(theme), DrawRarity(level, r));
    OfRarityMembers(ThemeSymbols(theme), DrawRarity(level, r));
    if |pool| > 0 then
      assert pool[PickIndex(u, |pool|)] in pool;
      pool[PickIndex(u, |pool|)]
    else Symbols[PickIndex(u, |Symbols|)]
  }

  /** The classic skin admits all six symbols. */
  lemma ClassicAdmitsAll()
    ensures ThemeSymbols(Themes.Classic) == Symbols
  {
    assert Themes.ConfigOrDefault(Themes.Classic).symbolSet == Themes.ClassicSymbols;
    InSymbolSetAll(Symbols, Themes.ClassicSymbols);
  }

  lemma {:induction false} InSymbolSetAll(symbols: seq<ZodiacSymbol>, symbolSet: seq<string>)
    requires forall s :: s in symbols ==> s.emoji in symbolSet
    ensures InSymbolSet(symbols, symbolSet) == symbols
    decreases |symbols|
  {
    if symbols != [] {
      InSymbolSetAll(symbols[1..], symbolSet);
    }
  }

  /** Under the classic skin every rarity the roll can give has a symbol, so
      the fallback is never taken: the drawn symbol has the rolled rarity. */
  lemma ClassicNeverFallsBack(level: int, r: real, u: real)
    requires 0.0 <= r < 1.0 && 0.0 <= u < 1.0
    ensures Draw(level, Themes.Classic, r, u).rarity == DrawRarity(level, r)
  {
    ClassicPoolNonEmpty(DrawRarity(level, r));
  }

  /** The classic skin has a symbol of every rarity but epic. */
  lemma ClassicPoolNonEmpty(rarity: Rarity)
    requires rarity != Epic
    ensures |Zodiac.OfRarity(ThemeSymbols(Themes.Classic), rarity)| > 0
  {
    ClassicAdmitsAll();
    SymbolsOfRarity(rarity);
  }

  lemma SymbolsOfRarity(rarity: Rarity)
    requires rarity != Epic
    ensures |Zodiac.OfRarity(Symbols, rarity)| > 0
  {
    var i := match rarity case Legendary => 0 case Rare => 1 case _ => 4;
    OfRarityMembers(Symbols, rarity);
    assert Symbols[i] in Symbols && Symbols[i].rarity == rarity;
  }

  /** The first code point of each of this slot's emoji. */
  const EmojiHeads: set<char> := {'🐯', '🦊', '🐸', '🧧', '🍊', '📜'}

  lemma HeadsOutside(xs: seq<string>)
    requires forall k :: 0 <= k < |xs| ==> |xs[k]| > 0 && xs[k][0] !in EmojiHeads
    ensures forall s :: s in Symbols ==> s.emoji !in xs
  {
    forall s | s in Symbols ensures s.emoji !in xs {
      assert |s.emoji| > 0 && s.emoji[0] in EmojiHeads;
    }
  }

  lemma {:induction false} InSymbolSetNone(symbols: seq<ZodiacSymbol>, symbolSet: seq<string>)
    requires forall s :: s in symbols ==> s.emoji !in symbolSet
    ensures InSymbolSet(symbols, symbolSet) == []
    decreases |symbols|
  {
    if symbols != [] {
      InSymbolSetNone(symbols[1..], symbolSet);
    }
  }

  lemma PhoenixSharesNone()
    ensures forall s :: s in Symbols ==> s.emoji !in Themes.PhoenixSymbols
  {
    HeadsOutside(Themes.PhoenixSymbols);
  }

  lemma PandaSharesNone()
    ensures forall s :: s in Symbols ==> s.emoji !in Themes.PandaSymbols
  {
    HeadsOutside(Themes.PandaSymbols);
  }

  lemma DragonSharesNone()
    ensures forall s :: s in Symbols ==> s.emoji !in Themes.DragonSymbols
  {
    HeadsOutside(Themes.DragonSymbols);
  }

  lemma JadeSharesNone()
    ensures forall s :: s in Symbols ==> s.emoji !in Themes.JadeSymbols
  {
    HeadsOutside(Themes.JadeSymbols);
  }

  lemma CelestialSharesNone()
    ensures forall s :: s in Symbols ==> s.emoji !in Themes.CelestialSymbols
  {
    HeadsOutside(Themes.CelestialSymbols);
  }

  lemma NoSharedEmoji(theme: Themes.ThemeId)
    requires theme != Themes.Classic
    ensures forall s :: s in Symbols ==> s.emoji !in Themes.ConfigOrDefault(theme).symbolSet
  {
    var set1 := Themes.ConfigOrDefault(theme).symbolSet;
    match theme
    case Phoenix => assert set1 == Themes.PhoenixSymbols; PhoenixSharesNone();
    case Panda => assert set1 == Themes.PandaSymbols; PandaSharesNone();
    case Dragon => assert set1 == Themes.DragonSymbols; DragonSharesNone();
    case Jade => assert set1 == Themes.JadeSymbols; JadeSharesNone();
    case Celestial => assert set1 == Themes.CelestialSymbols; CelestialSharesNone();
  }

  /** None of this slot's emoji appears in the symbol set of any skin other
      than the classic one. */
  lemma OtherSkinsAdmitNone(theme: Themes.ThemeId)
    requires theme != Themes.Classic
    ensures ThemeSymbols(theme) == []
  {
    var set1 := Themes.ConfigOrDefault(theme).symbolSet;
    NoSharedEmoji(theme);
    InSymbolSetNone(Symbols, set1);
  }

  /** So under those skins every draw takes the fallback: a uniform pick
      over all six symbols, whatever the rarity roll and the level. */
  lemma OtherSkinsAlwaysFallBack(theme: Themes.ThemeId, level: int, r: real, u: real)
    requires theme != Themes.Classic
    requires 0.0 <= r < 1.0 && 0.0 <= u < 1.0
    ensures Draw(level, theme, r, u) == Symbols[PickIndex(u, |Symbols|)]
  {
    OtherSkinsAdmitNone(theme);
  }

  // ---------------------------------------------------------------- evaluation

  datatype WinResult =
    | NoWin
    | Win(amount: int, symbol: ZodiacSymbol, line: RowLine, multiplier: real, isJackpot: bool)
  {
    /** The amount shown for the spin; 0 when nothing pays. */
    function Amount(): int {
      if Win? then amount else 0
    }
  }

  /** The consecutive-win bonus: a tenth per win in the streak, capped at 1. */
  function StreakBonus(winStreak: int): (b: real)
    ensures 0.0 <= b <= 1.0
    ensures winStreak <= 0 ==> b == 0.0
  {
    if winStreak > 0 then MinReal(winStreak as real * 0.1, 1.0) else 0.0
  }

  /** `checkWin`: at most one row pays, the first of middle, top, bottom
      whose names match. The middle row pays stake x symbol multiplier x
      (base + streak bonus + 5% per level); the top and bottom rows pay 60% of
      stake x symbol multiplier x base, with no bonus. Amounts are floored.
      Only a legendary middle row is flagged as a jackpot. */
  function CheckWin(g: seq<seq<ZodiacSymbol>>, bet: int, multiplier: real, winStreak: int, level: int): (w: WinResult)
    requires IsGrid(g)
    ensures w.NoWin? <==> forall l: RowLine :: !RowMatches(g, l)
    ensures w.Win? ==> RowMatches(g, w.line) && w.symbol == g[0][RowIndex(w.line)]
    ensures w.Win? ==> forall l: RowLine :: Before(l, w.line) ==> !RowMatches(g, l)
    ensures w.Win? ==> (w.isJackpot <==> w.line == Middle && w.symbol.rarity == Legendary)
    ensures w.Win? && w.line == Middle ==>
      w.multiplier == multiplier + StreakBonus(winStreak) + level as real * 0.05 &&
      w.amount == ((bet * w.symbol.multiplier) as real * w.multiplier).Floor
    ensures w.Win? && w.line != Middle ==>
      w.multiplier == multiplier &&
      w.amount == ((bet * w.symbol.multiplier) as real * 0.6 * multiplier).Floor
  {
    match FirstWinningRow(g)
    case None => NoWin
    case Some(line) =>
      var symbol := g[0][RowIndex(line)];
      if line == Middle then
        var finalMultiplier := multiplier + StreakBonus(winStreak) + level as real * 0.05;
        Win(((bet * symbol.multiplier) as real * finalMultiplier).Floor, symbol, Middle,
            finalMultiplier, symbol.rarity == Legendary)
      else
        Win(((bet * symbol.multiplier) as real * 0.6 * multiplier).Floor, symbol, line, multiplier, false)
  }

  /** The three celebration tiers of a win (toast, sound, particles). */
  datatype Celebration = Ordinary | BigWin | Jackpot

  function CelebrationRank(c: Celebration): nat {
    match c
    case Ordinary => 0
    case BigWin => 1
    case Jackpot => 2
  }

  /** Jackpot from twenty stakes up, big win from five, otherwise ordinary.
      The particle intensity (3, 2, 1) uses the same thresholds. */
  function CelebrationOf(amount: int, bet: int): Celebration {
    if amount >= bet * 20 then Jackpot
    else if amount >= bet * 5 then BigWin
    else Ordinary
  }

  /** A larger win never earns a smaller celebration. */
  lemma CelebrationMonotone(amount: int, larger: int, bet: int)
    requires amount <= larger
    ensures CelebrationRank(CelebrationOf(amount, bet)) <= CelebrationRank(CelebrationOf(larger, bet))
  {
  }

  /** A win flagged as a jackpot always reaches the jackpot celebration:
      the tiger pays fifty stakes before any bonus. */
  lemma JackpotFlagReachesJackpotTier(g: seq<seq<ZodiacSymbol>>, bet: int, winStreak: int, level: int)
    requires IsGrid(g)
    requires forall c, r :: 0 <= c < 3 && 0 <= r < 3 ==> g[c][r] in Symbols
    requires bet >= 0 && level >= 0
    ensures var w := CheckWin(g, bet, BaseMultiplier, winStreak, level);
      w.Win? && w.isJackpot ==> CelebrationOf(w.amount, bet) == Jackpot
  {
    var w := CheckWin(g, bet, BaseMultiplier, winStreak, level);
    if w.Win? && w.isJackpot {
      assert w.symbol == g[0][1] && w.symbol in Symbols;
      assert w.multiplier >= 1.0;
      TigerPaysJackpot(bet, w.symbol, w.multiplier);
      assert w.amount >= bet * 20;
    }
  }

  /** The legendary symbol scaled by a multiplier of at least one pays at
      least twenty stakes. */
  lemma TigerPaysJackpot(bet: int, s: ZodiacSymbol, m: real)
    requires bet >= 0 && m >= 1.0
    requires s in Symbols && s.rarity == Legendary
    ensures ((bet * s.multiplier) as real * m).Floor >= bet * 20
  {
    LegendaryIsTiger(s);
    FloorScaled(bet * 50, m);
  }

  /** The only legendary symbol is the tiger, paying fifty stakes. */
  lemma LegendaryIsTiger(s: ZodiacSymbol)
    requires s in Symbols && s.rarity == Legendary
    ensures s.multiplier == 50
  {
  }

  lemma FloorScaled(base: int, factor: real)
    requires base >= 0 && factor >= 1.0
    ensures (base as real * factor).Floor >= base
  {
    assert base as real * factor >= base as real * 1.0;
  }

  /** The converse fails: a top row of tigers pays thirty stakes, reaching
      the jackpot celebration without the jackpot flag. */
  lemma JackpotTierWithoutFlag()
    ensures var t := Symbols[0];
      var o := Symbols[4];
      var g := [[t, o, o], [t, t, o], [t, o, t]];
      IsGrid(g) &&
      var w := CheckWin(g, 100, BaseMultiplier, 0, 1);
      w.Win? && w.line == Top && !w.isJackpot && w.amount == 3000 &&
      CelebrationOf(w.amount, 100) == Jackpot
  {
    var t := Symbols[0];
    var o := Symbols[4];
    var g := [[t, o, o], [t, t, o], [t, o, t]];
    assert !RowMatches(g, Middle);
    assert RowMatches(g, Top);
    assert (5000 as real * 0.6 * 1.0).Floor == 3000;
  }

  // ---------------------------------------------------------------- spin

  /** The component's own state that a spin reads or writes. */
  datatype SlotState = SlotState(
    bet: int,
    winStreak: int,
    totalSpins: int,
    lastWin: int,
    theme: Themes.ThemeId)

  datatype Rejection = InsufficientEnergy | InsufficientCoins

  datatype SpinOutcome =
    | Rejected(reason: Rejection)
    | Spun(calls: seq<Callback>, grid: seq<seq<ZodiacSymbol>>, result: WinResult, next: SlotState)

  /** The final reels: one draw per cell, column by column. */
  function FillGrid(level: int, theme: Themes.ThemeId, draws: seq<seq<(real, real)>>): (g: seq<seq<ZodiacSymbol>>)
    requires ValidDraws(draws)
    ensures IsGrid(g)
    ensures forall c, r :: 0 <= c < 3 && 0 <= r < 3 ==>
      g[c][r] == Draw(level, theme, draws[c][r].0, draws[c][r].1)
  {
    seq(3, c requires 0 <= c < 3 =>
      seq(3, r requires 0 <= r < 3 => Draw(level, theme, draws[c][r].0, draws[c][r].1)))
  }

  /** What a spin that passed the gate does once its reels have stopped
      on `g` with result `w`: energy and stake were debited up front; a win
      credits `pre-spin coins - stake + win` and `floor(win / 10)` experience
      and extends the streak; a loss resets the streak. */
  function Settle(p: Props, st: SlotState, g: seq<seq<ZodiacSymbol>>, w: WinResult): (o: SpinOutcome)
    ensures o.Spun? && o.grid == g && o.result == w
    ensures |o.calls| >= 2 &&
      o.calls[0] == EnergyChange(p.energy - 1) && o.calls[1] == CoinsChange(p.coins - st.bet)
    ensures o.next.totalSpins == st.totalSpins + 1 && o.next.bet == st.bet && o.next.theme == st.theme
    ensures w.Win? ==> o.next.winStreak == st.winStreak + 1 && o.next.lastWin == w.amount
    ensures w.NoWin? ==> o.next.winStreak == 0 && o.next.lastWin == st.lastWin
  {
    var debit := [EnergyChange(p.energy - 1), CoinsChange(p.coins - st.bet)];
    var counted := st.(totalSpins := st.totalSpins + 1);
    if w.Win? then
      Spun(debit + [CoinsChange(p.coins - st.bet + w.amount), ExperienceChange(p.experience + w.amount / 10)],
           g, w, counted.(winStreak := st.winStreak + 1, lastWin := w.amount))
    else
      Spun(debit, g, w, counted.(winStreak := 0))
  }

  /** Settlement, as the parent's balances see it: energy drops by one, the
      balance ends at `coins - stake + win` (win 0 on a loss), and experience
      grows by `floor(win / 10)` on a win only. */
  lemma SettleBalances(p: Props, st: SlotState, g: seq<seq<ZodiacSymbol>>, w: WinResult)
    ensures Apply(p, Settle(p, st, g, w).calls) == Props(
      p.coins - st.bet + w.Amount(),
      p.energy - 1,
      p.experience + (if w.Win? then w.amount / 10 else 0))
  {
    var calls := Settle(p, st, g, w).calls;
    if w.Win? {
      assert |calls| == 4 && calls[3].ExperienceChange? && calls[2].CoinsChange?;
      assert LastEnergyChange(calls, 0) && LastCoinsChange(calls, 2) && LastExperienceChange(calls, 3);
    } else {
      assert |calls| == 2;
      assert LastEnergyChange(calls, 0) && LastCoinsChange(calls, 1);
    }
  }

  /** `spin`: refused (energy checked first) when there is no energy or the
      balance is below the stake; otherwise the reels are drawn, evaluated
      and settled. */
  function Spin(p: Props, level: int, st: SlotState, draws: seq<seq<(real, real)>>): (o: SpinOutcome)
    requires ValidDraws(draws)
    ensures o.Rejected? <==> p.energy < 1 || p.coins < st.bet
    ensures o.Rejected? ==> (o.reason == InsufficientEnergy <==> p.energy < 1)
    ensures o.Spun? ==> IsGrid(o.grid) && o == Settle(p, st, o.grid, CheckWin(o.grid, st.bet, BaseMultiplier, st.winStreak, level))
    ensures o.Spun? ==> forall c, r :: 0 <= c < 3 && 0 <= r < 3 ==>
      o.grid[c][r] == Draw(level, st.theme, draws[c][r].0, draws[c][r].1)
  {
    if p.energy < 1 then Rejected(InsufficientEnergy)
    else if p.coins < st.bet then Rejected(InsufficientCoins)
    else
      var g := FillGrid(level, st.theme, draws);
      Settle(p, st, g, CheckWin(g, st.bet, BaseMultiplier, st.winStreak, level))
  }

  /** The auto-spin effect schedules a spin only when auto-spin is on, no
      spin is running, and energy and balance allow one. */
  predicate AutoSpinDue(autoSpin: bool, isSpinning: bool, p: Props, bet: int) {
    autoSpin && !isSpinning && p.energy > 0 && p.coins >= bet
  }

  /** A scheduled auto-spin is never refused. */
  lemma AutoSpinNeverRejected(autoSpin: bool, isSpinning: bool, p: Props, level: int,
                              st: SlotState, draws: seq<seq<(real, real)>>)
    requires ValidDraws(draws)
    requires AutoSpinDue(autoSpin, isSpinning, p, st.bet)
    ensures Spin(p, level, st, draws).Spun?
  {
  }

  // ---------------------------------------------------------------- bet

  /** `adjustBet`: steps of 50 within [50, 1000]. */
  function AdjustBet(bet: int, increment: bool): (r: int)
    ensures MinBet <= bet <= MaxBet ==> MinBet <= r <= MaxBet
    ensures increment ==> r >= bet
    ensures !increment ==> r <= bet
  {
    Bets.SteppedAdjust(bet, increment, BetStep, MinBet, MaxBet)
  }

  /** From the initial stake of 100, every series of clicks leaves the stake
      a multiple of 50 between 50 and 1000. */
  lemma BetStaysInRange(clicks: seq<bool>)
    ensures var b := Bets.AfterClicks(InitialBet, clicks, BetStep, MinBet, MaxBet);
      MinBet <= b <= MaxBet && b % BetStep == 0
  {
    Bets.ClicksStayOnGrid(InitialBet, clicks, BetStep, MinBet, MaxBet);
  }
}

=== FILE: sprites.dfy ===
/** The sprite symbol catalog (`SYMBOL_SPRITES`) used by the fullscreen slot
    machine, the per-symbol sprite choice of `SpriteComponent`, and the list of
    sprites the `SpriteSystem` preloads. Asset imports are modelled by their
    asset paths. */
module Sprites {
  datatype Rarity = Common | Rare | Epic | Legendary

  datatype SpriteSymbol = SpriteSymbol(
    id: string,
    name: string,
    multiplier: nat,
    rarity: Rarity,
    idleSprite: string,
    winSprite: string)

  /** One preload request: cache key and asset URL. */
  datatype SpriteEntry = SpriteEntry(key: string, url: string)

  const Catalog: seq<SpriteSymbol> := [
    SpriteSymbol("tiger", "Tigre Dourado", 50, Legendary,
      "@/assets/sprites/tiger-idle.webp", "@/assets/sprites/tiger-win.webp"),
    SpriteSymbol("fox", "Raposa da Sorte", 25, Epic,
      "@/assets/sprites/fox-idle.webp", "@/assets/sprites/fox-win.webp"),
    SpriteSymbol("frog", "Sapo da Prosperidade", 15, Rare,
      "@/assets/sprites/frog-idle.webp", "@/assets/sprites/frog-win.webp"),
    SpriteSymbol("envelope", "Envelope Vermelho", 10, Rare,
      "@/assets/sprites/envelope-idle.webp", "@/assets/sprites/envelope-win.webp"),
    SpriteSymbol("orange", "Laranja da Fortuna", 5, Common,
      "@/assets/sprites/orange-idle.webp", "@/assets/sprites/orange-win.webp"),
    SpriteSymbol("scroll", "Pergaminho Místico", 3, Common,
      "@/assets/sprites/scroll-idle.webp", "@/assets/sprites/scroll-win.webp")
  ]

  /** The catalog symbols of one rarity, in catalog order
      (`SYMBOL_SPRITES.filter(s => s.rarity === rarity)`). */
  function OfRarity(rarity: Rarity): (pool: seq<SpriteSymbol>)
    ensures forall s :: s in pool <==> s in Catalog && s.rarity == rarity
  {
    FilterFromMembers(0, rarity);
    assert Catalog[0..] == Catalog;
    FilterFrom(0, rarity)
  }

  /** The filter over the catalog from position `i` on. */
  function FilterFrom(i: nat, rarity: Rarity): seq<SpriteSymbol>
    requires i <= |Catalog|
    decreases |Catalog| - i
  {
    if i == |Catalog| then []
    else (if Catalog[i].rarity == rarity then [Catalog[i]] else []) + FilterFrom(i + 1, rarity)
  }

  lemma FilterFromMembers(i: nat, rarity: Rarity)
    requires i <= |Catalog|
    decreases |Catalog| - i
    ensures forall s :: s in FilterFrom(i, rarity) <==> s in Catalog[i..] && s.rarity == rarity
  {
    if i < |Catalog| {
      FilterFromMembers(i + 1, rarity);
      assert Catalog[i..] == [Catalog[i]] + Catalog[i + 1..];
    }
  }

  /** Six symbols with distinct ids, paying strictly less further down the
      list (50, 25, 15, 10, 5, 3). */
  lemma CatalogShape()
    ensures |Catalog| == 6
    ensures forall i, j :: 0 <= i < j < |Catalog| ==> Catalog[i].id != Catalog[j].id
    ensures forall i, j :: 0 <= i < j < |Catalog| ==> Catalog[i].multiplier > Catalog[j].multiplier
  {
  }

  lemma LegendaryPool()
    ensures OfRarity(Legendary) == [Catalog[0]]
  {
    assert FilterFrom(5, Legendary) == [];
    assert FilterFrom(4, Legendary) == [];
    assert FilterFrom(3, Legendary) == [];
    assert FilterFrom(2, Legendary) == [];
    assert FilterFrom(1, Legendary) == [];
    assert FilterFrom(0, Legendary) == [Catalog[0]];
  }

  lemma EpicPool()
    ensures OfRarity(Epic) == [Catalog[1]]
  {
    assert FilterFrom(5, Epic) == [];
    assert FilterFrom(4, Epic) == [];
    assert FilterFrom(3, Epic) == [];
    assert FilterFrom(2, Epic) == [];
    assert FilterFrom(1, Epic) == [Catalog[1]];
    assert FilterFrom(0, Epic) == [Catalog[1]];
  }

  lemma RarePool()
    ensures OfRarity(Rare) == [Catalog[2], Catalog[3]]
  {
    assert FilterFrom(5, Rare) == [];
    assert FilterFrom(4, Rare) == [];
    assert FilterFrom(3, Rare) == [Catalog[3]];
    assert FilterFrom(2, Rare) == [Catalog[2], Catalog[3]];
    assert FilterFrom(1, Rare) == [Catalog[2], Catalog[3]];
    assert FilterFrom(0, Rare) == [Catalog[2], Catalog[3]];
  }

  lemma CommonPool()
    ensures OfRarity(Common) == [Catalog[4], Catalog[5]]
  {
    assert FilterFrom(5, Common) == [Catalog[5]];
    assert FilterFrom(4, Common) == [Catalog[4], Catalog[5]];
    assert FilterFrom(3, Common) == [Catalog[4], Catalog[5]];
    assert FilterFrom(2, Common) == [Catalog[4], Catalog[5]];
    assert FilterFrom(1, Common) == [Catalog[4], Catalog[5]];
    assert FilterFrom(0, Common) == [Catalog[4], Catalog[5]];
  }

  /** Exactly one legendary symbol (the tiger) and exactly one epic symbol
      (the fox); the rare and common pools hold two symbols each. */
  lemma RarityPools()
    ensures OfRarity(Legendary) == [Catalog[0]] && Catalog[0].id == "tiger"
    ensures OfRarity(Epic) == [Catalog[1]] && Catalog[1].id == "fox"
    ensures OfRarity(Rare) == [Catalog[2], Catalog[3]]
    ensures OfRarity(Common) == [Catalog[4], Catalog[5]]
  {
    LegendaryPool();
    EpicPool();
    RarePool();
    CommonPool();
  }

  /** The fox is the only epic symbol: no symbol of another rarity is it. */
  lemma OnlyEpicIsFox(s: SpriteSymbol)
    requires s in Catalog && s.rarity != Epic
    ensures s.id != "fox"
  {
    var i :| 0 <= i < |Catalog| && Catalog[i] == s;
    CatalogShape();
  }

  /** The asset a symbol component displays. */
  function SpriteUrl(s: SpriteSymbol, isWinning: bool): string {
    if isWinning then s.winSprite else s.idleSprite
  }

  /** The cache key under which that asset is loaded. */
  function SpriteKey(s: SpriteSymbol, isWinning: bool): string {
    s.id + "-" + (if isWinning then "win" else "idle")
  }

  /** The preload list: for each symbol in order, its idle entry then its win
      entry (`flatMap`). */
  function PreloadList(symbols: seq<SpriteSymbol>): seq<SpriteEntry>
  {
    if symbols == [] then []
    else [SpriteEntry(symbols[0].id + "-idle", symbols[0].idleSprite),
          SpriteEntry(symbols[0].id + "-win", symbols[0].winSprite)]
         + PreloadList(symbols[1..])
  }

  /** The preload list holds exactly two entries per symbol, and entry
      `2i + (win ? 1 : 0)` is the very key and URL a symbol component for
      symbol `i` asks for: everything displayed has been preloaded. */
  lemma {:induction false} PreloadMatchesDisplay(symbols: seq<SpriteSymbol>)
    ensures |PreloadList(symbols)| == 2 * |symbols|
    ensures forall i, w :: 0 <= i < |symbols| ==>
      PreloadList(symbols)[2 * i + (if w then 1 else 0)]
        == SpriteEntry(SpriteKey(symbols[i], w), SpriteUrl(symbols[i], w))
  {
    if symbols != [] {
      PreloadMatchesDisplay(symbols[1..]);
      var rest := PreloadList(symbols[1..]);
      var head := [SpriteEntry(symbols[0].id + "-idle", symbols[0].idleSprite),
                   SpriteEntry(symbols[0].id + "-win", symbols[0].winSprite)];
      assert PreloadList(symbols) == head + rest;
      forall i, w | 0 <= i < |symbols|
        ensures PreloadList(symbols)[2 * i + (if w then 1 else 0)]
          == SpriteEntry(SpriteKey(symbols[i], w), SpriteUrl(symbols[i], w))
      {
        var k := 2 * i + (if w then 1 else 0);
        if i == 0 {
          assert ("-" + "win") == "-win";
          assert ("-" + "idle") == "-idle";
          assert symbols[0].id + "-" + "win" == symbols[0].id + "-win";
          assert symbols[0].id + "-" + "idle" == symbols[0].id + "-idle";
        } else {
          assert PreloadList(symbols)[k] == rest[k - 2];
          assert k - 2 == 2 * (i - 1) + (if w then 1 else 0);
          assert symbols[1..][i - 1] == symbols[i];
        }
      }
    }
  }

  /** The catalog's preload list has 12 entries, `tiger-idle` first. */
  lemma CatalogPreload()
    ensures |PreloadList(Catalog)| == 12
    ensures PreloadList(Catalog)[0] == SpriteEntry("tiger-idle", "@/assets/sprites/tiger-idle.webp")
    ensures PreloadList(Catalog)[11] == SpriteEntry("scroll-win", "@/assets/sprites/scroll-win.webp")
  {
    PreloadMatchesDisplay(Catalog);
    assert PreloadList(Catalog)[2 * 0 + 0] == SpriteEntry(SpriteKey(Catalog[0], false), SpriteUrl(Catalog[0], false));
    assert PreloadList(Catalog)[2 * 5 + 1] == SpriteEntry(SpriteKey(Catalog[5], true), SpriteUrl(Catalog[5], true));
  }
}

=== FILE: themes.dfy ===
/** The machine skins (`themes`), their unlock rule, the selection handler
    and the unlock progress bar of the theme picker. Display fields
    (description, preview, colours) are left out. */
module Themes {
  import opened Wrappers
  import opened Numeric
  import opened Sprites

  datatype ThemeId = Classic | Phoenix | Panda | Dragon | Jade | Celestial

  datatype ThemeConfig = ThemeConfig(
    id: ThemeId,
    name: string,
    unlockLevel: int,
    symbolSet: seq<string>,
    rarity: Rarity)

  /** The emoji each skin puts on the reels. */
  const ClassicSymbols: seq<string> := ["🐯", "🦊", "🐸", "🧧", "🍊", "📜"]
  const PhoenixSymbols: seq<string> := ["🔥", "🕊️", "⭐", "🌟", "💎", "👑"]
  const PandaSymbols: seq<string> := ["🐼", "🎋", "🌸", "🍃", "🌿", "🧘"]
  const DragonSymbols: seq<string> := ["🐲", "⚡", "🌊", "☁️", "🌙", "🔮"]
  const JadeSymbols: seq<string> := ["💚", "🏯", "🌺", "🎭", "🪷", "🕉️"]
  const CelestialSymbols: seq<string> := ["🌌", "✨", "🪐", "🌟", "💫", "🔯"]

  const Table: seq<ThemeConfig> := [
    ThemeConfig(Classic, "Clássico Dourado", 1, ClassicSymbols, Common),
    ThemeConfig(Phoenix, "Fênix Imperial", 5, PhoenixSymbols, Rare),
    ThemeConfig(Panda, "Panda Zen", 10, PandaSymbols, Epic),
    ThemeConfig(Dragon, "Dragão Celestial", 15, DragonSymbols, Epic),
    ThemeConfig(Jade, "Jade Místico", 20, JadeSymbols, Legendary),
    ThemeConfig(Celestial, "Celestial Supremo", 30, CelestialSymbols, Legendary)
  ]

  predicate IsThemeUnlocked(playerLevel: int, theme: ThemeConfig) {
    playerLevel >= theme.unlockLevel
  }

  predicate StrictlyAscending(ts: seq<ThemeConfig>) {
    forall i, j :: 0 <= i < j < |ts| ==> ts[i].unlockLevel < ts[j].unlockLevel
  }

  /** Unlock levels 1, 5, 10, 15, 20, 30 in table order, distinct ids, and
      the classic skin first. */
  lemma TableShape()
    ensures |Table| == 6 && Table[0].id == Classic
    ensures StrictlyAscending(Table)
    ensures forall i, j :: 0 <= i < j < |Table| ==> Table[i].id != Table[j].id
    ensures forall t :: t in Table ==> t.unlockLevel >= 1
  {
  }

  /** How many leading table entries are unlocked at `playerLevel`. Because
      unlock levels ascend, the unlocked themes are exactly that prefix. */
  function UnlockedPrefix(playerLevel: int, ts: seq<ThemeConfig>): (k: nat)
    requires StrictlyAscending(ts)
    ensures k <= |ts|
    ensures forall i :: 0 <= i < |ts| ==> (IsThemeUnlocked(playerLevel, ts[i]) <==> i < k)
  {
    if ts == [] || !IsThemeUnlocked(playerLevel, ts[0]) then 0
    else 1 + UnlockedPrefix(playerLevel, ts[1..])
  }

  /** The classic skin is available from the first level on. */
  lemma ClassicUnlockedFromStart(playerLevel: int)
    requires playerLevel >= 1
    ensures Table[0].id == Classic && IsThemeUnlocked(playerLevel, Table[0])
  {
  }

  /** `themes.find(t => t.id === id)`: the first entry with that id. */
  function FindIn(ts: seq<ThemeConfig>, id: ThemeId): (r: Option<ThemeConfig>)
    ensures r.Some? ==> r.value in ts && r.value.id == id
    ensures r.None? <==> forall t :: t in ts ==> t.id != id
  {
    if ts == [] then None
    else if ts[0].id == id then Some(ts[0])
    else FindIn(ts[1..], id)
  }

  function Find(id: ThemeId): Option<ThemeConfig> {
    FindIn(Table, id)
  }

  /** Every skin id names a table entry. */
  lemma EveryThemeFound(id: ThemeId)
    ensures Find(id).Some? && Find(id).value.id == id
  {
    assert exists t :: t in Table && t.id == id by {
      match id
      case Classic => assert Table[0] in Table;
      case Phoenix => assert Table[1] in Table;
      case Panda => assert Table[2] in Table;
      case Dragon => assert Table[3] in Table;
      case Jade => assert Table[4] in Table;
      case Celestial => assert Table[5] in Table;
    }
  }

  /** Where each skin sits in the table. */
  function IndexOf(id: ThemeId): (i: nat)
    ensures i < |Table| && Table[i].id == id
  {
    match id
    case Classic => 0
    case Phoenix => 1
    case Panda => 2
    case Dragon => 3
    case Jade => 4
    case Celestial => 5
  }

  /** The configuration a slot uses for its current skin, falling back to
      the first entry (`themes.find(...) || themes[0]`). */
  function ConfigOrDefault(id: ThemeId): (t: ThemeConfig)
    ensures t in Table
    ensures t.id == id && t == Table[IndexOf(id)]
  {
    EveryThemeFound(id);
    TableShape();
    Find(id).GetOr(Table[0])
  }

  /** `handleThemeSelect`: the new selection, and the skin reported through
      `onThemeChange` if any. Only an existing, unlocked skin is taken; any
      other request changes nothing and reports nothing. */
  function HandleThemeSelect(playerLevel: int, selected: ThemeId, id: ThemeId): (r: (ThemeId, Option<ThemeId>))
    ensures r.1.Some? <==> exists t :: t in Table && t.id == id && IsThemeUnlocked(playerLevel, t)
    ensures r.1.Some? ==> r.0 == id && r.1.value == id
    ensures r.1.None? ==> r.0 == selected
  {
    match Find(id)
    case Some(t) =>
      if IsThemeUnlocked(playerLevel, t) then (id, Some(id))
      else
        assert forall u :: u in Table && u.id == id ==> u == t by { TableShape(); }
        (selected, None)
    case None => (selected, None)
  }

  /** `getUnlockProgress`: the level reached as a percentage of the level
      required, capped at 100. It reads 100 exactly when the level suffices. */
  function UnlockProgress(playerLevel: int, requiredLevel: int): (p: real)
    requires requiredLevel >= 1
    ensures p <= 100.0
    ensures p == 100.0 <==> playerLevel >= requiredLevel
    ensures playerLevel >= 0 ==> p >= 0.0
    ensures playerLevel < requiredLevel ==> p * requiredLevel as real == 100.0 * playerLevel as real
  {
    var ratio := playerLevel as real / requiredLevel as real;
    assert ratio >= 1.0 <==> playerLevel >= requiredLevel by {
      assert ratio * (requiredLevel as real) == playerLevel as real;
    }
    MinReal(100.0, ratio * 100.0)
  }

  /** The bar never shrinks as the player's level grows. */
  lemma ProgressMonotone(playerLevel: int, higherLevel: int, requiredLevel: int)
    requires requiredLevel >= 1 && playerLevel <= higherLevel
    ensures UnlockProgress(playerLevel, requiredLevel) <= UnlockProgress(higherLevel, requiredLevel)
  {
    var a := playerLevel as real / requiredLevel as real;
    var b := higherLevel as real / requiredLevel as real;
    assert a * (requiredLevel as real) == playerLevel as real;
    assert b * (requiredLevel as real) == higherLevel as real;
    assert a <= b;
  }

  /** The progress bar of every skin is full exactly when the skin is
      unlocked. */
  lemma ProgressFullIffUnlocked(playerLevel: int, t: ThemeConfig)
    requires t in Table
    ensures t.unlockLevel >= 1
    ensures UnlockProgress(playerLevel, t.unlockLevel) == 100.0 <==> IsThemeUnlocked(playerLevel, t)
  {
    TableShape();
  }
}

=== FILE: wrappers.dfy ===
/** The optional-value type used wherever the source returns `null`/`undefined`
    or looks something up that may be missing. */
module Wrappers {

  datatype Option<+T> = None | Some(value: T) {

    /** The wrapped value, or `default` when there is none. */
    function GetOr(default: T): T {
      match this
      case Some(v) => v
      case None => default
    }
  }
}

=== FILE: zodiac.dfy ===
/** What the two zodiac slots (premium and fortune) share: the symbol record,
    the three horizontal paylines, and the first-match row check that pays at
    most one line per spin, in the order middle, top, bottom. Symbols are
    compared by name. */
module Zodiac {
  import opened Wrappers
  import opened Grid
  import opened Sprites

  datatype ZodiacSymbol = ZodiacSymbol(emoji: string, name: string, multiplier: nat, rarity: Rarity)

  datatype RowLine = Top | Middle | Bottom

  function RowIndex(line: RowLine): (r: nat)
    ensures r < 3
  {
    match line
    case Top => 0
    case Middle => 1
    case Bottom => 2
  }

  /** Lines in the order they are checked. */
  const Priority: seq<RowLine> := [Middle, Top, Bottom]

  /** The row's three names are equal (`a.name === b.name && b.name === c.name`). */
  predicate RowMatches(g: seq<seq<ZodiacSymbol>>, line: RowLine)
    requires IsGrid(g)
  {
    var r := RowIndex(line);
    g[0][r].name == g[1][r].name && g[1][r].name == g[2][r].name
  }

  /** `line` is checked before `other`. */
  predicate Before(line: RowLine, other: RowLine) {
    (line == Middle && other != Middle) || (line == Top && other == Bottom)
  }

  /** The first line in priority order whose row matches, if any. */
  function FirstWinningRow(g: seq<seq<ZodiacSymbol>>): (w: Option<RowLine>)
    requires IsGrid(g)
    ensures w.None? <==> forall l: RowLine :: !RowMatches(g, l)
    ensures w.Some? ==> RowMatches(g, w.value)
    ensures w.Some? ==> forall l: RowLine :: Before(l, w.value) ==> !RowMatches(g, l)
  {
    if RowMatches(g, Middle) then Some(Middle)
    else if RowMatches(g, Top) then Some(Top)
    else if RowMatches(g, Bottom) then Some(Bottom)
    else None
  }

  /** `symbols.filter(s => s.rarity === rarity)`. */
  function OfRarity(symbols: seq<ZodiacSymbol>, rarity: Rarity): seq<ZodiacSymbol>
  {
    if symbols == [] then []
    else (if symbols[0].rarity == rarity then [symbols[0]] else []) + OfRarity(symbols[1..], rarity)
  }

  lemma {:induction false} OfRarityMembers(symbols: seq<ZodiacSymbol>, rarity: Rarity)
    ensures forall s :: s in OfRarity(symbols, rarity) <==> s in symbols && s.rarity == rarity
    decreases |symbols|
  {
    if symbols != [] {
      OfRarityMembers(symbols[1..], rarity);
      assert symbols == [symbols[0]] + symbols[1..];
    }
  }
}
